=== FILE: README.md ===
# YouToLink URL shortener — a Dafny model of its rules

YouToLink shortens long URLs. Links are created one at a time or in bulk. A visit
to a short link redirects to the long URL and raises its click counter. Signed-in
users see their own links with per-link analytics. Each user also has a monthly
quota: a free plan allows 25 links and the premium plan 1000. The system is a set
of HTTP handlers over three tables of a hosted database, plus a React client.

This project models the rules inside those handlers and client components:

- **Tables and the store.** The `urls`, `url_analytics` and `user_subscriptions`
  tables become the fields of one `Tables.Store` class. Short codes are unique and
  ids grow with insertion order.
- **Handlers.** Each handler is a method on that store. Its contract states the
  reply and the whole new state, for every branch of the source.
- **The quota ledger (`Quota`).** Admission, the charge after a create, the plan
  change and the usage reset are pure functions, with lemmas about the limit they keep.
- **The express server (`ServerApp`).** Shortening, the user's link list, link
  analytics, alias update, delete, redirect and stats.
- **The serverless handlers.** `ShortenApi` is the `/api/shorten` handler with its
  quota check. `IndexApi` is the catch-all router with its own redirect.
  `SubscriptionApi` and `AdminApi` are the subscription and admin endpoints.
- **Click analytics (`Analytics`).** The histogram folds over click rows, with their
  default buckets.
- **Client pages.** Blog slugs (`AdminBlogs`), the shorten form (`HomeForm`),
  dashboard totals (`DashboardView`), the quota panel (`SubscriptionView`) and the
  read-time estimate (`BlogPost`).

## Modelling choices

- **Database outcomes.** A unique-key violation (Postgres 23505) is the insert or
  update finding the short code already taken. "No row" (PGRST116) is a key missing
  from the subscriptions map. Other database failures are left out, except the two
  the subscription endpoint branches on: `fetchFails` and `insertFails` are parameters.
- **Randomness.** `Math.random` is replaced by a parameter: each generated code takes
  a draw of six indices into the 62-character alphabet. Bulk entry `i` uses draw `i`.
  Which links a bulk request makes is stated by `Shortening.BulkRun`: a drawn code that
  is already taken, in the table or by an earlier entry, makes the insert fail.
- **Headers.** A header or body field that JavaScript treats as falsy (absent or
  `""`) is an `Option<string>` judged by `Common.Present`.
- **Click rows.** The client-derived fields of a click row (`country`, `device_type`,
  `browser`) are a `ClickInfo` parameter of the redirect, because `parseAnalytics`
  is not part of this model. Every click row refers to an id the `urls` serial has
  already handed out; this is part of the store invariant.
- **Ordering.** Newest-first ordering by `created_at` is modelled as descending row
  id. Ids are allocated in insertion order.
- **Normalisation.** The two scheme normalisations of the source genuinely differ:
  the serverless router keeps `httpbin.org` without a scheme
  (`Urls.NormalizeVariantsDiffer`, `Urls.HttpbinExample`). The model keeps both, as
  written.
- **Redirect counters.** The catch-all router's redirect raises `click_count` without
  recording an analytics row. So after it, a link's count no longer equals its number
  of click rows (`IndexApi.RedirectSkipsAnalytics`). The express redirect keeps them
  equal (`ServerApp.Redirect`).

## Model

| member | source | states |
|---|---|---|
| Codes.AlphabetIsAlphanumeric | api/shorten.js:7 | The generator's alphabet has 62 characters, every one an ASCII letter or digit, and every ASCII letter or digit occurs in it |
| Codes.GeneratedCode | api/shorten.js:6-13 | A generated code has exactly 6 characters |
| Codes.GeneratedCodeValid | server/index.js:29-41 | Every character of a generated code is a letter or digit; the code satisfies the custom-code rule and holds no '/' |
| Codes.GenerateShortCode | server/index.js:29-36 | The loop builds exactly the code the draw stands for: 6 alphabet characters, valid as a custom code |
| Codes.IsValidCustomCode | server/index.js:39-41 | A valid custom code holds no `/` and no `?`, so it is one path segment of the short URL and does not reach the query |
| Common.UserIdOf | api/shorten.js:58 | The caller id is present exactly when the `x-user-id` header is present and non-empty, and is then that header |
| Text.Trim | api/shorten.js:66 | `trim()` never lengthens the string, leaves no whitespace at either end, and is the empty (falsy) string exactly when the string is all whitespace |
| Text.TrimIsSlice | api/shorten.js:66 | `trim()` is the slice of the string between a blank prefix and a blank suffix; with `Trim`'s non-whitespace ends this fixes the result |
| Text.ReplaceFirst | server/index.js:45 | With an occurrence of the pattern, the result is the text before the first occurrence, then the replacement, then the text after it; with no occurrence the string is unchanged |
| Text.SplitOn | client/src/components/Home.tsx:40 | `split(sep)` yields at least one piece and no piece contains the separator |
| Text.JoinSplit | client/src/components/Home.tsx:40 | Joining the pieces of a split with the separator gives back the original string |
| Text.SplitJoin | client/src/components/Home.tsx:40 | Splitting a join of separator-free pieces gives back those pieces |
| Text.SplitCount | client/src/components/BlogPost.tsx:54 | A split has one more piece than the string has separators |
| Urls.Normalize | server/index.js:120-122 | The stored URL has an `http://` or `https://` scheme, ends with the input, and equals the input exactly when it already had such a scheme |
| Urls.NormalizeIdempotent | api/shorten.js:163-166 | Normalising an already normalised URL changes nothing |
| Urls.NormalizeLoose | api/index.js:40 | The stored URL starts with `http`, ends with the input, and equals the input exactly when the input starts with `http` |
| Urls.NormalizeVariantsDiffer | api/index.js:40 | The two normalisations disagree exactly on URLs that start with `http` but carry no `http://`/`https://` scheme |
| Urls.HttpbinExample | api/index.js:40 | `httpbin.org` is stored unchanged, and so without a scheme, by the router; the other handlers prefix `https://` |
| Tables.CodeIndex | server/index.js:360-364 | The lookup by short code finds a row holding that code, or reports that no row holds it |
| Tables.OwnedIndex | server/index.js:286-290 | The lookup by id and owner finds a row with that id owned by the caller, or reports that none exists; an absent owner matches nothing |
| Tables.OwnedBy | server/index.js:170-173 | The selection by owner holds exactly the rows owned by that user |
| Tables.OwnedByIncreasing | server/index.js:170-174 | Selecting a user's rows keeps them in creation (id) order |
| Tables.NewestFirst | api/admin.js:83-87 | The same rows in reverse order, element by element; rows stored in id order come out with strictly decreasing ids, newest first |
| Tables.KeyedIffPairs | server/index.js:136-149 | The row-by-row store invariant is the same as: short codes pairwise distinct, ids strictly increasing and below the next id |
| Tables.KeyedUnique | server/index.js:360-364 | In a valid table no two rows share a short code or an id, so `.single()` on a code is well defined |
| Tables.Store.constructor | server/index.js:136-149 | The empty store is valid: no links, no click rows, no subscriptions |
| Tables.Store.InsertUrl | server/index.js:136-149 | The insert succeeds exactly when the code is not taken (otherwise the unique-key error); on success it appends the row with the next id and click count 0, and changes nothing else |
| Tables.KeyedRemove | server/index.js:316-320 | Deleting one row keeps the table's unique codes, increasing ids and the id bound |
| Tables.KeyedReplace | server/index.js:286-299 | Giving one row a code no other row holds keeps the table's constraints |
| Tables.Store.UpdateCode | server/index.js:286-299 | The alias update succeeds exactly when no other row holds the code; it changes only that row's short code |
| Tables.Store.IncrementClicks | server/index.js:382-385 | Raises one row's click count by exactly 1 and changes nothing else |
| Tables.Store.AddClick | server/index.js:374-379 | Appends one analytics row, for an id already handed out, and changes nothing else |
| Tables.Store.DeleteUrl | server/index.js:316-320 | Removes exactly the given row and keeps the store valid |
| Tables.Store.PutSubscription | api/admin.js:106-115 | Sets one user's subscription row and leaves the other tables alone |
| Quota.Lookup | api/shorten.js:18-22 | The subscription read finds the user's row exactly when one exists |
| Quota.CheckUsageLimit | api/shorten.js:15-36 | Anonymous callers are admitted; a user without a row is admitted iff the count is at most 25, with remaining 25 minus the count; a user with a row is admitted iff limit minus usage is at least the count, with remaining limit minus usage minus the count, and the row's plan is reported |
| Quota.DenialFor | api/shorten.js:72-77 | The 429 body is never negative, adds the request's count back to the remaining count the check reported, keeps the plan, and offers an upgrade exactly on the free plan |
| Quota.DenialReportsRemaining | api/shorten.js:70-78 | A 429 reports the links left before the request, never below 0, and asks for an upgrade exactly when the user's row is on the free plan |
| Quota.WithDefault | api/shorten.js:24-28 | After the check, a user without a row has the default free/25/0 row and every other row is unchanged |
| Quota.Charge | api/shorten.js:109-135 | After a create, the user's usage has grown by exactly the number created; a missing row is created as free/25 with that usage; other rows are unchanged |
| Quota.AdmissionKeepsWithinLimit | api/shorten.js:150-213 | A user admitted for n links who then creates at most n ends within the limit, with usage grown by exactly the number created and the limit unchanged |
| Quota.LimitFor | api/admin.js:110 | The limit is 1000 iff the plan is `premium`, and 25 otherwise |
| Quota.SetPlan | api/admin.js:106-115 | `update_plan` sets the plan and its limit (1000 iff premium, else 25) and leaves usage unchanged |
| Quota.Upgrade | api/subscription.js:77-83 | The upgrade sets plan premium and limit 1000 and leaves usage unchanged |
| Quota.UpgradeIsSetPlanPremium | api/subscription.js:77-83 | The user's upgrade and the admin's change to premium produce the same row |
| Quota.ResetUsage | api/admin.js:123-130 | `reset_usage` sets usage to 0 and leaves plan and limit unchanged |
| Quota.UpgradeAndResetKeepWithin | api/admin.js:104-136 | Upgrading a row within its limit keeps it within; resetting brings any row with a non-negative limit within |
| Quota.DowngradeCanExceedLimit | api/admin.js:106-115 | A downgrade keeps usage, so a premium user with 500 links is over the free limit afterwards and refused even zero links, with 0 reported remaining |
| Shortening.Prepare | api/shorten.js:84-87 | A bulk entry is stored trimmed: the result ends with the trimmed entry, has an `http://`/`https://` scheme, and equals the trimmed entry exactly when it already had such a scheme |
| Shortening.NonBlank | api/shorten.js:66 | Filtering keeps no blank entry and never adds entries |
| Shortening.NonBlankMembers | api/shorten.js:66 | An entry survives the filter exactly when it was in the input and is not blank |
| Shortening.NonBlankAppend | api/shorten.js:66 | Filtering a concatenation is the concatenation of the filtered parts, so order is kept |
| Shortening.NonBlankIdempotent | api/shorten.js:66 | Filtering blank entries twice is filtering once |
| Shortening.NewRows | api/shorten.js:91-97 | The rows a bulk run inserts: one per result, in order, with consecutive ids, the result's code and URL, the caller as owner and 0 clicks |
| Shortening.BulkRun | server/index.js:81-110 | The bulk results, entry by entry: a blank entry adds nothing; any other adds its prepared URL on the code drawn for it unless that code is in the table or taken by an earlier entry. Every code is free in the table and different from the others, and every URL has a scheme |
| Shortening.BulkRunBound | api/shorten.js:65-82 | A bulk run yields at most one result per non-blank entry |
| Shortening.Planned | api/shorten.js:83-106 | Without collisions a bulk request yields one result per non-blank entry, in order, each the prepared entry on a generated code and short URL |
| Shortening.PlannedCodes | api/shorten.js:89 | A code drawn for none of the non-blank entries is the code of no planned result |
| Shortening.BulkRunComplete | api/shorten.js:83-106 | When the codes drawn for the non-blank entries are free and pairwise distinct, every non-blank entry gets its link: the results are exactly the planned ones, one per non-blank entry |
| Shortening.CodeFreeAfter | api/shorten.js:91-99 | After the results so far were inserted, a code is free exactly when it was free before and no result took it |
| Shortening.BulkRunStep | server/index.js:81-110 | One more entry extends the results exactly as the loop body does |
| Shortening.InsertResult | api/shorten.js:89-105 | The insert of one row: a result comes back exactly when the code was free, carrying the URL, the code and its short URL; the table gains that row only then, with the next id and the caller as owner |
| Shortening.ShortenOne | api/shorten.js:84-105 | One entry: a result comes back exactly when the drawn code was free, and it is the prepared URL with that code and its short URL; the store gains exactly that row with the next id and the caller as owner |
| Shortening.ShortenStep | server/index.js:81-110 | One iteration: a blank entry makes nothing; any other extends the results as `BulkRun` does, and the store holds exactly the rows of the results so far |
| Shortening.ShortenEach | server/index.js:79-112 | The bulk loop returns exactly `BulkRun` over the entries as they were, and the store gains exactly one row per result, with consecutive ids |
| ShortenApi.AfterCheck | api/shorten.js:69-70 | A signed-in caller's check leaves every other row as it was and adds the caller's key, holding the stored row or the default free/25/0 row; an anonymous call leaves the table alone |
| ShortenApi.RefusalOf | api/shorten.js:72-77 | The 429 body reports the links left before the request (limit minus usage of the stored or default row, never below 0), the plan of an existing row, and an upgrade offer exactly when the stored row is on the free plan |
| ShortenApi.CheckQuota | api/shorten.js:15-36 | The check returns the admission decision for the stored row and inserts the default row when there is none; nothing else changes |
| ShortenApi.RecordUsage | api/shorten.js:187-213 | The usage update charges exactly the created count to the caller, creating a free/25 row when missing |
| ShortenApi.BulkChargesWhatIsMade | api/shorten.js:108-143 | An admitted signed-in bulk caller is charged exactly the number of links made, which is at most the non-blank entries and exactly that many when no drawn code collides |
| ShortenApi.ShortenBulk | api/shorten.js:64-143 | A refused caller gets 429 with the refusal body and no link; otherwise the reply is exactly `BulkRun` over the non-blank entries, their rows are appended, and the caller is charged exactly the number made when it is not zero |
| ShortenApi.ShortenSingle | api/shorten.js:145-220 | Missing long URL: 400 with nothing checked or changed; refused: 429 and no link; a taken code: 409 and no charge; otherwise one row with the trimmed, normalised URL, the custom or drawn code and the caller as owner, a short URL on `https://u2l.in`, and a charge of 1 |
| ShortenApi.Handle | api/shorten.js:45-143 | OPTIONS is empty 200 and other non-POST methods 405, with nothing changed. A `urls` body is answered by the bulk path or a 429, with its full outcome; any other body has the single path's full outcome, the caller being the non-empty `x-user-id` header; neither a 409 nor a 429 adds a row |
| ServerApp.TokenEmpty | server/index.js:45-46 | The token left after removing `Bearer ` is empty exactly when the header is empty or exactly `Bearer ` |
| ServerApp.GetAuthUser | server/index.js:44-48 | There is no user exactly when the Authorization header yields no token; otherwise the user id is the `x-user-id` header |
| ServerApp.Owner | server/index.js:96 | The stored owner is the user's id when there is a user with a non-empty id, and null otherwise |
| ServerApp.BaseUrl | server/index.js:151-153 | Short URLs are based on the request host over https in production and on `http://localhost:5001` otherwise |
| ServerApp.Shorten | server/index.js:72-160 | Bulk: the results are exactly `BulkRun` over the entries with short URLs on `BaseUrl(production, host)`, one row each, owned by the caller. Single: no long URL is 400; an invalid custom code is 400 with the store unchanged; a taken code is 409 with no row; otherwise one row with the normalised URL and the custom or drawn code. Counts keep agreeing with click rows |
| ServerApp.MyUrls | server/index.js:163-185 | No user is 401; otherwise the list holds exactly the caller's links, newest first |
| ServerApp.LinkAnalytics | server/index.js:188-262 | No user is 401; a code not owned by the caller is 404; otherwise the report carries the link's click rows and their summary |
| ServerApp.UpdateAlias | server/index.js:272-304 | No user is 401 and an invalid code is 400, both before any change; a code held by another row is 409 with nothing changed; otherwise only the short code of the caller's row changes (no matching row: success, nothing changed). Counts keep agreeing with click rows |
| ServerApp.DeleteLink | server/index.js:307-331 | No user is 401 with nothing changed; otherwise success, and exactly the caller's row with that id is removed when it exists. Counts keep agreeing with click rows |
| ServerApp.RedirectKeepsCounts | server/index.js:374-385 | Adding one analytics row for a link and raising its count by 1 keeps every link's count equal to its number of click rows |
| ServerApp.CreateKeepsCounts | server/index.js:136-142 | New links with 0 clicks and ids no click row refers to keep every count equal to its number of click rows |
| ServerApp.DeleteKeepsCounts | server/index.js:316-320 | Removing a link keeps every other link's count equal to its number of click rows |
| ServerApp.Redirect | server/index.js:356-392 | An unknown code is 404 with nothing changed; a known code redirects to its long URL, adds one analytics row, raises exactly that link's count by 1, and keeps counts in agreement with click rows |
| ServerApp.Stats | server/index.js:395-418 | The stats reply exists exactly when the code exists, and carries that link's click count; otherwise 404 |
| IndexApi.PathOf | api/index.js:28-29 | The routed path contains no `?` |
| IndexApi.PathOfPlain | api/index.js:29 | A URL without a query is its own path |
| IndexApi.PathOfQuery | api/index.js:29 | The path is everything before the first `?`; the query string does not affect routing |
| IndexApi.PathIsPrefix | api/index.js:29 | The path is a prefix of the request URL |
| IndexApi.IsShorten | api/index.js:33 | The shorten route lies under `/api/` |
| IndexApi.IsApiRead | api/index.js:59 | No request is both an API read and a shorten, so the order of the two routes does not matter |
| IndexApi.CodeOfPath | api/index.js:64 | The looked-up code is the path without its first character |
| IndexApi.IndexBase | api/index.js:54-56 | The base is `http://` plus the host when the host mentions localhost, and `https://u2l.in` otherwise |
| IndexApi.Handle | api/index.js:23-87 | OPTIONS is empty 200. A shorten without a long URL is 400; a taken code is 409 with no row; otherwise one row with the loosely normalised URL, the code as given and no owner. Other GETs under `/api/` are 404. Otherwise an empty code or an unknown code is 404; a known code redirects and raises only that link's count by 1, with no analytics row |
| IndexApi.RedirectSkipsAnalytics | api/index.js:80-86 | This redirect breaks the agreement between a link's count and its click rows |
| SubscriptionApi.Normalized | api/subscription.js:66-71 | The reply has plan `free` when the plan is empty and limit 25 when the limit is 0, and passes usage through |
| SubscriptionApi.NormalizedShape | api/subscription.js:66-71 | A normalised row has a plan and a non-zero limit; normalising is idempotent and leaves the default row unchanged |
| SubscriptionApi.Handle | api/subscription.js:12-89 | No user is 401. GET: a read error is 500; a missing row is answered with free/25/0 and inserted unless the insert fails; otherwise the normalised row. POST: premium/1000 with usage kept, and no row reported when there is none. Nothing changes on any other path |
| AdminApi.OwnedByCount | api/admin.js:53-60 | The number of links selected for a user is the number of rows that user owns |
| AdminApi.OwnedCount | api/admin.js:53-60 | The count is at most the table size and is 0 exactly when the user owns no row |
| AdminApi.IsAdmin | api/admin.js:24-27 | An administrator is a present caller id; a missing or empty `x-user-id` is never one |
| AdminApi.UsersReport | api/admin.js:35-66 | One entry per subscription, carrying that row, `actual_url_count` equal to the number of links the user owns, and exactly those links |
| AdminApi.StatsOf | api/admin.js:68-95 | Total and premium users are counted from the table; `free_users` equals the users on any other plan, so the two add up to the total; `recent_urls` holds the min(10, total) newest links, newest first |
| AdminApi.Handle | api/admin.js:19-139 | A caller not in the admin list is 403 with nothing changed. GET gives users or stats, and any other action is 400. POST `update_plan` or `reset_usage` updates exactly that user's row, and a missing target or row is 500. Any other POST action is 400 with nothing changed |
| AdminBlogs.Lower | client/src/components/AdminBlogs.tsx:84 | Lower-casing maps each character and keeps the length |
| AdminBlogs.Collapse | client/src/components/AdminBlogs.tsx:84 | Replacing runs of non-`[a-z0-9]` characters gives only slug characters and single dashes; it ends with a dash exactly when the input ends with a non-slug character |
| AdminBlogs.CollapseAppend | client/src/components/AdminBlogs.tsx:84 | Where one part ends or the next begins with a slug character, no run crosses the break, so the replacement works on the two parts separately |
| AdminBlogs.CollapseRun | client/src/components/AdminBlogs.tsx:84 | A non-empty run of non-`[a-z0-9]` characters becomes exactly one dash |
| AdminBlogs.Unfringe | client/src/components/AdminBlogs.tsx:84 | The result is the input without its first character exactly when that is a dash, and without its last remaining character exactly when that is a dash; nothing else is removed. On a string of slug characters and single dashes this leaves no dash at either end |
| AdminBlogs.UnfringeKeeps | client/src/components/AdminBlogs.tsx:84 | A string that neither starts nor ends with a dash is left unchanged |
| AdminBlogs.Slug | client/src/components/AdminBlogs.tsx:83-85 | A slug holds only `[a-z0-9]` and dashes, has no two adjacent dashes, and neither starts nor ends with a dash |
| AdminBlogs.SlugJoinsWords | client/src/components/AdminBlogs.tsx:83-85 | Word breaks survive: two `[a-z0-9]` words separated by any non-empty run of characters that are not slug characters once lower-cased give the two words joined by one dash |
| AdminBlogs.CollapseDashed | client/src/components/AdminBlogs.tsx:84 | The run replacement leaves a string already in slug form unchanged |
| AdminBlogs.SlugIdempotent | client/src/components/AdminBlogs.tsx:83-85 | Slugging a slug gives it back |
| AdminBlogs.Alnums | client/src/components/AdminBlogs.tsx:84 | The slug characters of a string are all in `[a-z0-9]` |
| AdminBlogs.SlugKeepsAlnums | client/src/components/AdminBlogs.tsx:83-85 | The letters and digits of the lower-cased title appear in the slug in the same order, and no others |
| AdminBlogs.EditTitle | client/src/components/AdminBlogs.tsx:200-206 | A title edit sets the title and the slug generated from it and keeps the other fields |
| AdminBlogs.EditSlug | client/src/components/AdminBlogs.tsx:239 | A slug edit changes only the slug |
| AdminBlogs.TitleEditOverridesSlug | client/src/components/AdminBlogs.tsx:200-206 | A hand-typed slug is replaced by the next title edit, which yields a well-formed slug |
| AdminBlogs.CountsAddUp | client/src/components/AdminBlogs.tsx:148-156 | Published plus drafts equals the total number of posts |
| AdminBlogs.PublishedCount | client/src/components/AdminBlogs.tsx:152 | At most all posts are published, and all are exactly when every post is |
| AdminBlogs.DraftCount | client/src/components/AdminBlogs.tsx:156 | There are at most as many drafts as posts, and none exactly when every post is published |
| AdminBlogs.Preview | client/src/components/AdminBlogs.tsx:401-402 | Content of at most 120 characters is shown whole; longer content is its first 120 characters followed by `...` |
| HomeForm.Sanitize | client/src/components/Home.tsx:170 | The filtered custom code is no longer than the input and holds only `[a-zA-Z0-9-_]` |
| HomeForm.SanitizeKeeps | client/src/components/Home.tsx:170 | A character is in the filtered code exactly when it is in the input and in `[a-zA-Z0-9-_]` |
| HomeForm.SanitizeAppend | client/src/components/Home.tsx:170 | Filtering works character by character, so order is kept: filtering a concatenation concatenates the filtered parts |
| HomeForm.SanitizeIdentity | client/src/components/Home.tsx:170 | Input already in the character class passes unchanged |
| HomeForm.SanitizeIdempotent | client/src/components/Home.tsx:170 | Filtering twice is filtering once |
| HomeForm.SanitizedCodeValid | client/src/components/Home.tsx:170-172 | A filtered code of at most 20 typed characters passes the server's custom-code rule exactly when it has at least 3 characters |
| HomeForm.BulkLines | client/src/components/Home.tsx:40 | The bulk body has at most one entry per line; its entries are exactly the non-blank lines of the text, untrimmed and without a newline |
| HomeForm.NonBlankAll | client/src/components/Home.tsx:40 | Filtering a list with no blank entry keeps it whole |
| HomeForm.BulkLinesOfJoin | client/src/components/Home.tsx:40 | Non-blank lines joined with newlines come back exactly, in order, and the server's filter keeps all of them |
| HomeForm.RequestBody | client/src/components/Home.tsx:38-40 | Single mode sends the long URL and a custom code only when one was typed; bulk mode sends only the filtered lines |
| HomeForm.BulkBodyAlreadyFiltered | client/src/components/Home.tsx:40 | The server's blank-entry filter keeps every entry the client sends |
| HomeForm.QrCodeOfShortUrl | client/src/components/Home.tsx:65 | The last `/`-segment of a short URL is its code when the code holds no `/` |
| HomeForm.QrCodeOfGenerated | client/src/components/Home.tsx:65 | The QR request names exactly the generated code |
| HomeForm.LastSegment | client/src/components/Home.tsx:65 | The last `/`-segment holds no `/`, and a string without `/` is its own last segment |
| HomeForm.SubmitDisabled | client/src/components/Home.tsx:201 | A pending request always disables submit; when submit is enabled in single mode, the body carries a present long URL whatever the custom code, so the server does not answer the missing-URL 400 |
| DashboardView.TotalAppend | client/src/components/Dashboard.tsx:100 | The total over two lists is the sum of their totals |
| DashboardView.TotalClicks | client/src/components/Dashboard.tsx:100 | With no negative count, the total is not negative |
| DashboardView.IsActive | client/src/components/Dashboard.tsx:162 | An active link contributes at least one click to the total |
| DashboardView.ActiveCount | client/src/components/Dashboard.tsx:162 | There are never more active links than links |
| DashboardView.ActiveAtMostTotal | client/src/components/Dashboard.tsx:162 | With non-negative counts, the active links are at most the total clicks |
| DashboardView.AverageClicks | client/src/components/Dashboard.tsx:166 | The average is the mean of clicks over max(links, 1) rounded to the nearest integer, halves up |
| DashboardView.RoundedHalfUp | client/src/components/Dashboard.tsx:166 | `(2t + d) / (2d)` lies within half of `t / d`, so it is `Math.round(t / d)` with halves up |
| DashboardView.AverageOfNone | client/src/components/Dashboard.tsx:166 | With no links the average is 0 |
| DashboardView.StartEdit | client/src/components/Dashboard.tsx:46-49 | Edit sets the row being edited and the edit value to its current code |
| DashboardView.StopEdit | client/src/components/Dashboard.tsx:243 | Cancel clears the row being edited |
| DashboardView.EditThenCancel | client/src/components/Dashboard.tsx:46-49 | After edit exactly that row is being edited, with its code as value; after cancel no row is |
| SubscriptionView.Render | client/src/components/Subscription.tsx:74-112 | Nothing renders before the subscription loads. Otherwise: the premium title iff the plan is premium; the upgrade button and panel iff free; "limit reached" iff limit minus usage is at most 0, else that number; the bar red iff usage exceeds 80%; the bar at its cap iff usage reaches the limit |
| SubscriptionView.LimitReachedIffRefused | client/src/components/Subscription.tsx:108 | For the row the panel is given, "Usage limit reached" is shown exactly when the server, checking that same row, would refuse one more link |
| SubscriptionView.ShownLimitReachedIffRefused | api/subscription.js:66-71 | The panel is given the stored row as the endpoint normalises it; for every stored limit other than 0, "Usage limit reached" is shown exactly when the server, checking the stored row, would refuse one more link |
| SubscriptionView.ZeroLimitShownAsFree | api/subscription.js:66-71 | A stored limit of 0 is reported as the free limit of 25: the panel offers 25 more links while the server refuses the next one |
| SubscriptionView.RefusedShowsFullRedBar | client/src/components/Subscription.tsx:103-104 | With a positive limit, a user refused by the server sees a red bar at its cap |
| SubscriptionView.FreeBarRedFrom21 | client/src/components/Subscription.tsx:103 | On the free limit the bar turns red from 21 links on |
| SubscriptionView.UpgradeHidesOffer | client/src/components/Subscription.tsx:85 | After an upgrade the offer is gone and the premium title is shown |
| BlogPost.WordCount | client/src/components/BlogPost.tsx:54 | The word count is the number of spaces plus 1 |
| BlogPost.ReadTime | client/src/components/BlogPost.tsx:53-56 | The read time is at least 1 and is the ceiling of words over 200 |
| BlogPost.ReadTimeMonotone | client/src/components/BlogPost.tsx:53-56 | More spaces never lower the read time |
| BlogPost.ReadTimeGrows | client/src/components/BlogPost.tsx:53-56 | Appending a space never lowers the read time |
| BlogPost.ReadTimeBands | client/src/components/BlogPost.tsx:55 | Empty content reads in 1 minute, 1 to 200 words in 1 minute, 201 words in 2 |
| Analytics.Tally | server/index.js:229 | One fold step adds exactly 1 to the count of its key and to the total, and nothing to any other count; the keys stay the same when the key was there, and it is added last otherwise |
| Analytics.Histogram | server/index.js:227-231 | Each key's count is its number of occurrences, the counts sum to the number of rows, no key is repeated, and the keys are exactly those that occur |
| Analytics.KeyOf | server/index.js:228 | A row's key is its field when present, and the dimension's default otherwise |
| Analytics.KeysOf | server/index.js:227-245 | The keys of the rows, one per row, in order |
| Analytics.ClicksOf | server/index.js:210-214 | The selection of a link's click rows is never longer than the table and holds exactly the click details of the rows that refer to that link |
| Analytics.ClicksOfAppend | server/index.js:374-379 | A new click row joins the selection of exactly its own link |
| Analytics.ClicksOfNone | server/index.js:210-214 | A link no row points to has no click rows |
| Analytics.Summarize | server/index.js:221-245 | totalClicks is the number of rows; each of the countries, devices and browsers histograms sums to it, has no repeated key, and counts each key's occurrences |
| Analytics.DefaultBucket | server/index.js:228-242 | Rows with the field missing are counted under `Unknown` for country and browser and under `desktop` for device, together with rows that state that value |

## Left out

- The database client, its query shapes and network calls. The tables are a store
  object, and a query is a function over its fields.
- Database failures other than a duplicate short code and a missing row. This covers
  the 500 paths of every handler, except the subscription endpoint's read and insert
  failures, which are parameters. A bulk insert that fails for any reason other than a
  taken code is not modelled.
- Concurrency. The click-count and usage updates read and then write. They are modelled
  as sequential steps, and lost updates are not modelled.
- `parseAnalytics` (IP geolocation and user-agent parsing), the referrer and daily-click
  histograms, QR image generation and `billing_cycle_start` dates. They depend on
  libraries, clocks or URL parsing that are not part of this model.
- CORS headers, express setup and environment checks.
- The order of rows by `created_at` and `clicked_at`. Newest first is modelled as
  descending id, and click rows are kept in insertion order.
- AdminApi.UsersReport: the users list is a map keyed by user id. The order of the
  source's array, newest subscription first by `created_at`, is not modelled.
- ShortenApi.CheckQuota: the row inserted for a missing user holds only the user id and
  relies on column defaults. It is modelled as free/25/0.
- ServerApp.MyUrls: a user with no `x-user-id` header is modelled as owning no links.
  This stands for a query on an undefined id.
- ServerApp.UpdateAlias: a body without `short_code` is not modelled; the code is a
  string parameter.
- ServerApp.DeleteLink: foreign-key cascades on analytics rows are not modelled; the
  click rows are kept.
- The dashboard's alias edit as an end-to-end round trip is not modelled. The client
  sends `shortCode` but the server reads `short_code`.
- Request bodies whose `urls` is not an array of strings, or whose `longUrl` is not a
  string, are not modelled.
- AdminApi.Handle: a body without `plan_type` is not modelled; the plan is a string
  parameter.
- SubscriptionApi.Normalized: `Number(x) || 25` on a value that is not a number is not
  modelled. Limits and usage are integers.
- SubscriptionView.Render: the usage percentage is floating point. It is stated as the
  integer comparisons it amounts to, and the remaining text is a datatype, not a string.
- DashboardView.AverageClicks: `Math.round` on a float is stated as exact integer
  rounding, halves up.
- AdminBlogs.Preview: lengths are counted in characters, where the source's `length` and
  `substring` count UTF-16 code units. Content outside the Basic Multilingual Plane is
  therefore cut later than in the source, and a cut inside a surrogate pair is not modelled.
- AdminBlogs.Lower: only ASCII letters are lower-cased; other scripts' case mappings
  are not modelled.
- HomeForm.SanitizedCodeValid: the input's `maxLength` of 20 is a precondition.
- Analytics: the order of integer-like keys in a JavaScript object is not modelled.
  Buckets are in first-appearance order.
- Pages that only display data or pass it through are not part of this model: pricing,
  terms, about, navigation, ads, authentication forms, the blog list and the analytics
  page.

=== FILE: admin_api.dfy ===
/**
 * The `/api/admin` handler: a fixed list of administrators may list the users with
 * their link counts, read the overall statistics, change a user's plan and reset a
 * user's monthly usage.
 */
module AdminApi {
  import opened Common
  import opened Tables
  import opened Quota

  /** The user ids allowed in. */
  const AdminUsers: seq<string> := ["your-admin-user-id-1", "your-admin-user-id-2"]

  /** `userId && ADMIN_USERS.includes(userId)`: an anonymous caller is never an administrator. */
  predicate IsAdmin(userHeader: Option<string>)
    ensures IsAdmin(userHeader) ==> UserIdOf(userHeader) == userHeader
    ensures !Present(userHeader) ==> !IsAdmin(userHeader)
  {
    Present(userHeader) && userHeader.value in AdminUsers
  }

  /** The number of rows owned by `uid`, counted from the front of the table. */
  function OwnedCount(rows: seq<UrlRow>, uid: string): (n: nat)
    ensures n <= |rows|
    ensures n == 0 <==> forall i :: 0 <= i < |rows| ==> rows[i].userId != Some(uid)
  {
    if rows == [] then 0 else (if rows[0].userId == Some(uid) then 1 else 0) + OwnedCount(rows[1..], uid)
  }

  /** Counting over two halves of a table adds up. */
  lemma {:induction false} OwnedCountAppend(a: seq<UrlRow>, b: seq<UrlRow>, uid: string)
    ensures OwnedCount(a + b, uid) == OwnedCount(a, uid) + OwnedCount(b, uid)
  {
    if a != [] {
      assert (a + b)[0] == a[0] && (a + b)[1..] == a[1..] + b;
      OwnedCountAppend(a[1..], b, uid);
    } else {
      assert a + b == b;
    }
  }

  /** The rows `.eq('user_id', uid)` selects are exactly as many as the rows owned by `uid`. */
  lemma {:induction false} OwnedByCount(rows: seq<UrlRow>, uid: string)
    ensures |OwnedBy(rows, uid)| == OwnedCount(rows, uid)
  {
    if rows != [] {
      var init, last := rows[..|rows| - 1], rows[|rows| - 1];
      assert rows == init + [last];
      OwnedByCount(init, uid);
      OwnedCountAppend(init, [last], uid);
      if last.userId == Some(uid) {
        assert OwnedBy(rows, uid) == OwnedBy(init, uid) + [last];
        assert OwnedCount([last], uid) == 1;
      } else {
        assert OwnedBy(rows, uid) == OwnedBy(init, uid);
        assert OwnedCount([last], uid) == 0;
      }
    }
  }

  /** The same for every user. */
  lemma OwnedByCountAll(rows: seq<UrlRow>)
    ensures forall uid :: |OwnedBy(rows, uid)| == OwnedCount(rows, uid)
  {
    forall uid
      ensures |OwnedBy(rows, uid)| == OwnedCount(rows, uid)
    {
      OwnedByCount(rows, uid);
    }
  }

  /** One entry of the users list: the subscription with the user's link count and links. */
  datatype UserStat = UserStat(subscription: Subscription, actualUrlCount: nat, urls: seq<UrlRow>)

  /** `action=users`: every subscription with `actual_url_count`, the number of links its user owns. */
  function UsersReport(subs: map<string, Subscription>, rows: seq<UrlRow>): (r: map<string, UserStat>)
    ensures r.Keys == subs.Keys
    ensures forall u :: u in r ==> r[u].subscription == subs[u] && r[u].actualUrlCount == OwnedCount(rows, u)
    ensures forall u :: u in r ==> |r[u].urls| == r[u].actualUrlCount && forall k :: 0 <= k < |r[u].urls| ==> r[u].urls[k].userId == Some(u)
    ensures forall u, x :: u in r ==> (x in r[u].urls <==> x in rows && x.userId == Some(u))
    ensures forall u :: u in r && IdsIncrease(rows) ==> IdsIncrease(r[u].urls)
  {
    OwnedByCountAll(rows);
    forall u | IdsIncrease(rows)
      ensures IdsIncrease(OwnedBy(rows, u))
    {
      OwnedByIncreasing(rows, u);
    }
    map u | u in subs :: UserStat(subs[u], |OwnedBy(rows, u)|, OwnedBy(rows, u))
  }

  /** The users on the premium plan. */
  function PremiumUsers(subs: map<string, Subscription>): set<string>
  {
    set u | u in subs && subs[u].planType == "premium"
  }

  /** The users on any other plan. */
  function FreeUsers(subs: map<string, Subscription>): set<string>
  {
    set u | u in subs && subs[u].planType != "premium"
  }

  /** The `action=stats` reply. */
  datatype Stats = Stats(totalUsers: nat, premiumUsers: nat, freeUsers: int, totalUrls: nat, recentUrls: seq<UrlRow>)

  /**
   * `action=stats`: `free_users` is computed as total minus premium, which is the number
   * of users on any plan but premium; `recent_urls` are the ten newest links.
   */
  function StatsOf(subs: map<string, Subscription>, rows: seq<UrlRow>): (r: Stats)
    ensures r.totalUsers == |subs| && r.premiumUsers == |PremiumUsers(subs)| && r.totalUrls == |rows|
    ensures r.freeUsers == |FreeUsers(subs)| && r.premiumUsers + r.freeUsers == r.totalUsers
    ensures |r.recentUrls| == (if |rows| < 10 then |rows| else 10)
    ensures forall k :: 0 <= k < |r.recentUrls| ==> r.recentUrls[k] == rows[|rows| - 1 - k]
  {
    var premium, free := PremiumUsers(subs), FreeUsers(subs);
    assert subs.Keys == premium + free && premium * free == {};
    var newest := NewestFirst(rows);
    Stats(|subs|, |premium|, |subs| - |premium|, |rows|, if |rows| < 10 then newest else newest[..10])
  }

  /** The replies of the handler. */
  datatype Reply =
    | Empty(status: int)                 // OPTIONS preflight
    | Failure(status: int, error: string) // 400, 403, 500
    | Users(users: map<string, UserStat>)
    | StatsReply(stats: Stats)
    | Updated(subscription: Subscription)
    | NoResponse                         // any other method: nothing is sent

  /**
   * The handler. Only an administrator gets past the gate. `update_plan` sets the plan
   * and its limit, `reset_usage` sets usage to 0; either on a user without a row fails
   * as the single-row update does. An unknown action is 400 for GET and POST alike.
   */
  method Handle(store: Store, verb: HttpMethod, userHeader: Option<string>, action: Option<string>, target: Option<string>, plan: string)
    returns (reply: Reply)
    requires store.Valid()
    modifies store
    ensures store.Valid()
    ensures store.urls == old(store.urls) && store.clicks == old(store.clicks) && store.nextId == old(store.nextId)
    ensures verb == Options ==> reply == Empty(200) && unchanged(store)
    ensures verb != Options && !IsAdmin(userHeader) ==> reply == Failure(403, "Admin access required") && unchanged(store)
    ensures verb != Options && IsAdmin(userHeader) ==>
      var subs := old(store.subscriptions);
      if verb == Get then
        && unchanged(store)
        && reply == (if action == Some("users") then Users(UsersReport(subs, store.urls))
                     else if action == Some("stats") then StatsReply(StatsOf(subs, store.urls))
                     else Failure(400, "Invalid action"))
      else if verb == Post then
        if action != Some("update_plan") && action != Some("reset_usage") then
          reply == Failure(400, "Invalid action") && unchanged(store)
        else if target.None? || target.value !in subs then
          reply == Failure(500, "Server error") && unchanged(store)
        else
          var row := subs[target.value];
          var updated := if action == Some("update_plan") then SetPlan(row, plan) else ResetUsage(row);
          reply == Updated(updated) && store.subscriptions == subs[target.value := updated]
      else
        reply == NoResponse && unchanged(store)
  {
    if verb == Options {
      return Empty(200);
    }
    if !IsAdmin(userHeader) {
      return Failure(403, "Admin access required");
    }
    if verb == Get {
      if action == Some("users") {
        reply := Users(UsersReport(store.subscriptions, store.urls));
      } else if action == Some("stats") {
        reply := StatsReply(StatsOf(store.subscriptions, store.urls));
      } else {
        reply := Failure(400, "Invalid action");
      }
    } else if verb == Post {
      if action != Some("update_plan") && action != Some("reset_usage") {
        return Failure(400, "Invalid action");
      }
      var row := if target.Some? then Lookup(store.subscriptions, target.value) else None;
      if row.None? {
        return Failure(500, "Server error");
      }
      var updated := if action == Some("update_plan") then SetPlan(row.value, plan) else ResetUsage(row.value);
      store.PutSubscription(target.value, updated);
      reply := Updated(updated);
    } else {
      reply := NoResponse;
    }
  }
}

=== FILE: admin_blogs.dfy ===
/**
 * The blog administration page: the slug derived from a title, the form's title
 * and slug fields, the published and draft counters, and the content preview.
 */
module AdminBlogs {

  /** `toLowerCase` on one character; only ASCII letters change. */
  function LowerChar(c: char): char
  {
    if 'A' <= c <= 'Z' then (c as int + 32) as char else c
  }

  /** `title.toLowerCase()` on ASCII text. */
  function Lower(s: string): (r: string)
    ensures |r| == |s| && forall i :: 0 <= i < |s| ==> r[i] == LowerChar(s[i])
  {
    seq(|s|, i requires 0 <= i < |s| => LowerChar(s[i]))
  }

  /** A character of the class `[a-z0-9]`. */
  predicate IsSlugChar(c: char)
  {
    'a' <= c <= 'z' || '0' <= c <= '9'
  }

  /** Every character is a slug character or a dash, and no two dashes are adjacent. */
  predicate Dashed(s: string)
  {
    && (forall i :: 0 <= i < |s| ==> IsSlugChar(s[i]) || s[i] == '-')
    && (forall i :: 0 <= i < |s| - 1 ==> s[i] != '-' || s[i + 1] != '-')
  }

  /** Neither end is a dash. */
  predicate Unfringed(s: string)
  {
    |s| > 0 ==> s[0] != '-' && s[|s| - 1] != '-'
  }

  /** `.replace(/[^a-z0-9]+/g, '-')`: each maximal run of other characters becomes one dash. */
  function Collapse(s: string): (r: string)
    ensures Dashed(r)
    ensures |s| > 0 ==> |r| > 0 && (r[|r| - 1] == '-' <==> !IsSlugChar(s[|s| - 1]))
    ensures |s| == 0 ==> r == []
  {
    if s == [] then [] else Push(Collapse(s[..|s| - 1]), s[|s| - 1])
  }

  /** One more input character: a slug character is copied, any other adds a dash unless one is already there. */
  function Push(p: string, c: char): string
  {
    if IsSlugChar(c) then p + [c]
    else if |p| > 0 && p[|p| - 1] == '-' then p
    else p + ['-']
  }

  /** Pushing onto a longer prefix: only the last part decides, unless it is empty. */
  lemma PushAppend(a: string, b: string, c: char)
    requires b != [] || a == [] || a[|a| - 1] != '-' || IsSlugChar(c)
    ensures Push(a + b, c) == a + Push(b, c)
  {
    if b != [] {
      assert (a + b)[|a + b| - 1] == b[|b| - 1];
    } else {
      assert a + b == a;
    }
    assert a + b + [c] == a + (b + [c]);
    assert a + b + ['-'] == a + (b + ['-']);
  }

  /**
   * `.replace(/(^-|-$)/g, '')`: drop a dash at the start and one at the end. On a dashed
   * string this leaves a dashed string with no dash at either end.
   */
  function Unfringe(s: string): (r: string)
    ensures |r| <= |s|
    ensures var i := if |s| > 0 && s[0] == '-' then 1 else 0;
      var j := if |s| > i && s[|s| - 1] == '-' then |s| - 1 else |s|;
      r == s[i..j]
    ensures Dashed(s) ==> Dashed(r) && Unfringed(r)
  {
    var a := if |s| > 0 && s[0] == '-' then s[1..] else s;
    assert Dashed(s) ==> Dashed(a) && (|a| > 0 ==> a[0] != '-') by {
      if |s| > 0 && s[0] == '-' && Dashed(s) {
        DashedSlice(s, 1, |s|);
        if |a| > 0 {
          assert a[0] == s[1];
        }
      }
    }
    assert Dashed(s) && |a| > 1 && a[|a| - 1] == '-' ==> a[|a| - 2] != '-' && Dashed(a[..|a| - 1]) by {
      if Dashed(s) && |a| > 1 && a[|a| - 1] == '-' {
        DashedSlice(a, 0, |a| - 1);
      }
    }
    if |a| > 0 && a[|a| - 1] == '-' then a[..|a| - 1] else a
  }

  /** `generateSlug(title)`: only `[a-z0-9]` and single dashes, with no dash at either end. */
  function Slug(title: string): (r: string)
    ensures Dashed(r) && Unfringed(r)
  {
    Unfringe(Collapse(Lower(title)))
  }

  /** A slice of a dashed string is dashed. */
  lemma DashedSlice(s: string, i: nat, j: nat)
    requires Dashed(s) && i <= j <= |s|
    ensures Dashed(s[i..j])
  {
    assert forall k :: 0 <= k < j - i ==> s[i..j][k] == s[i + k];
  }

  /** A break after a slug character: collapsing the two halves separately gives the same result. */
  lemma {:induction false} CollapseAppend(x: string, y: string)
    requires x == [] || y == [] || IsSlugChar(x[|x| - 1]) || IsSlugChar(y[0])
    ensures Collapse(x + y) == Collapse(x) + Collapse(y)
    decreases |y|
  {
    if y == [] {
      assert x + y == x;
    } else if x == [] {
      assert x + y == y;
    } else {
      var init, c := y[..|y| - 1], y[|y| - 1];
      assert (x + y)[..|x + y| - 1] == x + init && (x + y)[|x + y| - 1] == c;
      if init == [] {
        assert x + init == x && Collapse(init) == [];
      } else {
        assert init[0] == y[0];
        CollapseAppend(x, init);
      }
      PushAppend(Collapse(x), Collapse(init), c);
    }
  }

  /** A non-empty run of characters outside `[a-z0-9]` becomes one dash. */
  lemma {:induction false} CollapseRun(sep: string)
    requires sep != [] && forall i :: 0 <= i < |sep| ==> !IsSlugChar(sep[i])
    ensures Collapse(sep) == "-"
  {
    if |sep| > 1 {
      CollapseRun(sep[..|sep| - 1]);
    }
  }

  /** Collapsing a dashed string changes nothing. */
  lemma {:induction false} CollapseDashed(s: string)
    requires Dashed(s)
    ensures Collapse(s) == s
  {
    if s != [] {
      var init := s[..|s| - 1];
      DashedSlice(s, 0, |s| - 1);
      CollapseDashed(init);
      var c := s[|s| - 1];
      assert Collapse(s) == Push(init, c);
      if |init| > 0 {
        assert init[|init| - 1] == s[|s| - 2];
      }
      assert Push(init, c) == init + [c];
      assert init + [c] == s;
    }
  }

  /**
   * A word break survives: two words over `[a-z0-9]` separated by any run of characters
   * that are not slug characters once lower-cased come out joined by one dash.
   */
  lemma SlugJoinsWords(a: string, sep: string, b: string)
    requires a != [] && forall i :: 0 <= i < |a| ==> IsSlugChar(a[i])
    requires b != [] && forall i :: 0 <= i < |b| ==> IsSlugChar(b[i])
    requires sep != [] && forall i :: 0 <= i < |sep| ==> !IsSlugChar(LowerChar(sep[i]))
    ensures Slug(a + sep + b) == a + "-" + b
  {
    var l := Lower(sep);
    LowerAround(a, sep, b);
    CollapseRun(l);
    CollapseDashed(a);
    CollapseDashed(b);
    CollapseAppend(a, l);
    assert Collapse(a + l) == a + "-";
    CollapseAppend(a + l, b);
    assert Collapse(Lower(a + sep + b)) == a + "-" + b;
    var r := a + "-" + b;
    assert r[0] == a[0] && r[|r| - 1] == b[|b| - 1];
    UnfringeKeeps(r);
  }

  /** A string that neither starts nor ends with a dash passes through `Unfringe` unchanged. */
  lemma UnfringeKeeps(s: string)
    requires Unfringed(s)
    ensures Unfringe(s) == s
  {
  }

  /** Lower-casing leaves `[a-z0-9]` text as it is, so only the middle part changes. */
  lemma LowerAround(a: string, sep: string, b: string)
    requires forall i :: 0 <= i < |a| ==> IsSlugChar(a[i])
    requires forall i :: 0 <= i < |b| ==> IsSlugChar(b[i])
    ensures Lower(a + sep + b) == a + Lower(sep) + b
  {
    var l := Lower(sep);
    forall i | 0 <= i < |a + sep + b| ensures Lower(a + sep + b)[i] == (a + l + b)[i] {
      if i < |a| {
        assert (a + sep + b)[i] == a[i];
      } else if i < |a| + |sep| {
        assert (a + sep + b)[i] == sep[i - |a|];
      } else {
        assert (a + sep + b)[i] == b[i - |a| - |sep|];
      }
    }
  }

  /** Generating a slug from a slug gives it back. */
  lemma SlugIdempotent(title: string)
    ensures Slug(Slug(title)) == Slug(title)
  {
    var s := Slug(title);
    assert Lower(s) == s;
    CollapseDashed(s);
  }

  /** The slug characters of `s`, in order. */
  function Alnums(s: string): (r: string)
    ensures forall i :: 0 <= i < |r| ==> IsSlugChar(r[i])
  {
    if s == [] then [] else Alnums(s[..|s| - 1]) + (if IsSlugChar(s[|s| - 1]) then [s[|s| - 1]] else [])
  }

  lemma {:induction false} AlnumsAppend(a: string, b: string)
    ensures Alnums(a + b) == Alnums(a) + Alnums(b)
  {
    if b == [] {
      assert a + b == a;
    } else {
      AlnumsAppend(a, b[..|b| - 1]);
      assert (a + b)[..|a + b| - 1] == a + b[..|b| - 1];
    }
  }

  /** Collapsing keeps the slug characters in order. */
  lemma {:induction false} AlnumsCollapse(s: string)
    ensures Alnums(Collapse(s)) == Alnums(s)
  {
    if s != [] {
      var p := Collapse(s[..|s| - 1]);
      AlnumsCollapse(s[..|s| - 1]);
      AlnumsAppend(p, [s[|s| - 1]]);
      assert Alnums(['-']) == [];
      AlnumsAppend(p, ['-']);
    }
  }

  /** Dropping fringe dashes keeps the slug characters. */
  lemma AlnumsUnfringe(s: string)
    ensures Alnums(Unfringe(s)) == Alnums(s)
  {
    assert Alnums(['-']) == [];
    var a := if |s| > 0 && s[0] == '-' then s[1..] else s;
    if |s| > 0 && s[0] == '-' {
      assert s == ['-'] + a;
      AlnumsAppend(['-'], a);
    }
    if |a| > 0 && a[|a| - 1] == '-' {
      assert a == a[..|a| - 1] + ['-'];
      AlnumsAppend(a[..|a| - 1], ['-']);
    }
  }

  /** The letters and digits of the lower-cased title appear in the slug, in the same order, and no others. */
  lemma SlugKeepsAlnums(title: string)
    ensures Alnums(Slug(title)) == Alnums(Lower(title))
  {
    AlnumsCollapse(Lower(title));
    AlnumsUnfringe(Collapse(Lower(title)));
  }

  /** The form of a new post. */
  datatype BlogForm = BlogForm(title: string, content: string, slug: string, published: bool)

  /** Typing in the title field: the slug follows the title. */
  function EditTitle(f: BlogForm, title: string): (r: BlogForm)
    ensures r.title == title && r.slug == Slug(title)
    ensures r.content == f.content && r.published == f.published
  {
    f.(title := title, slug := Slug(title))
  }

  /** Typing in the slug field: only the slug changes. */
  function EditSlug(f: BlogForm, slug: string): (r: BlogForm)
    ensures r.slug == slug && r.title == f.title && r.content == f.content && r.published == f.published
  {
    f.(slug := slug)
  }

  /** A slug typed by hand is replaced at the next title edit, which yields a well-formed slug. */
  lemma TitleEditOverridesSlug(f: BlogForm, slug: string, title: string)
    ensures EditTitle(EditSlug(f, slug), title) == EditTitle(f, title)
    ensures Dashed(EditTitle(f, title).slug) && Unfringed(EditTitle(f, title).slug)
  {
  }

  /** A post as listed on the page. */
  datatype Blog = Blog(id: nat, title: string, content: string, slug: string, published: bool)

  /** `blogs.filter(b => b.published).length`. */
  function PublishedCount(blogs: seq<Blog>): (n: nat)
    ensures n <= |blogs|
    ensures n == |blogs| <==> forall i :: 0 <= i < |blogs| ==> blogs[i].published
  {
    if blogs == [] then 0 else PublishedCount(blogs[..|blogs| - 1]) + (if blogs[|blogs| - 1].published then 1 else 0)
  }

  /** `blogs.filter(b => !b.published).length`. */
  function DraftCount(blogs: seq<Blog>): (n: nat)
    ensures n <= |blogs|
    ensures n == 0 <==> forall i :: 0 <= i < |blogs| ==> blogs[i].published
  {
    if blogs == [] then 0 else DraftCount(blogs[..|blogs| - 1]) + (if blogs[|blogs| - 1].published then 0 else 1)
  }

  /** Published and draft posts add up to all posts. */
  lemma {:induction false} CountsAddUp(blogs: seq<Blog>)
    ensures PublishedCount(blogs) + DraftCount(blogs) == |blogs|
  {
    if blogs != [] {
      CountsAddUp(blogs[..|blogs| - 1]);
    }
  }

  /** `content.substring(0, 120)` followed by `...` when the content is longer than 120 characters. */
  function Preview(content: string): (r: string)
    ensures |content| <= 120 ==> r == content
    ensures |content| > 120 ==> |r| == 123 && r[..120] == content[..120] && r[120..] == "..."
  {
    if |content| > 120 then content[..120] + "..." else content
  }
}

=== FILE: analytics.dfy ===
/**
 * The click histograms of the analytics endpoint: each is a `reduce` over the
 * click rows that counts one key per click into an object, with a default key
 * for a missing field. An object is modelled as its list of buckets in
 * insertion order, which is the order JavaScript enumerates string keys in.
 */
module Analytics {
  import opened Common
  import opened Tables

  /** One property of the histogram object: a key and its count. */
  datatype Bucket = Bucket(key: string, count: nat)

  /** The keys of the object, in insertion order. */
  function Keys(h: seq<Bucket>): (r: seq<string>)
    ensures |r| == |h| && forall i :: 0 <= i < |h| ==> r[i] == h[i].key
  {
    seq(|h|, i requires 0 <= i < |h| => h[i].key)
  }

  /** No element occurs twice. */
  predicate NoDuplicates(s: seq<string>)
  {
    forall i, j :: 0 <= i < j < |s| ==> s[i] != s[j]
  }

  /** The position of the last occurrence of `x` in `s`, if any. */
  function LastIndex(s: seq<string>, x: string): (r: Option<nat>)
    ensures r.Some? ==> r.value < |s| && s[r.value] == x
    ensures r.None? ==> x !in s
  {
    if s == [] then None
    else if s[|s| - 1] == x then Some(|s| - 1)
    else LastIndex(s[..|s| - 1], x)
  }

  /** `acc[key] || 0`. */
  function CountOf(h: seq<Bucket>, key: string): nat
  {
    match LastIndex(Keys(h), key)
    case Some(i) => h[i].count
    case None => 0
  }

  /** The sum of all counts. */
  function Total(h: seq<Bucket>): nat
  {
    if h == [] then 0 else Total(h[..|h| - 1]) + h[|h| - 1].count
  }

  /**
   * `acc[key] = (acc[key] || 0) + 1`: bump an existing bucket in place, or add a new one at
   * the end. The key's count and the total grow by one and no other count changes; a key
   * already present keeps the keys, a new one goes last.
   */
  function Tally(h: seq<Bucket>, key: string): (r: seq<Bucket>)
    ensures forall k :: CountOf(r, k) == CountOf(h, k) + (if k == key then 1 else 0)
    ensures Total(r) == Total(h) + 1
    ensures Keys(r) == if key in Keys(h) then Keys(h) else Keys(h) + [key]
  {
    match LastIndex(Keys(h), key)
    case Some(i) =>
      var t := h[i := Bucket(key, h[i].count + 1)];
      assert Keys(t) == Keys(h);
      TotalReplace(h, i, Bucket(key, h[i].count + 1));
      t
    case None =>
      var t := h + [Bucket(key, 1)];
      assert Keys(t) == Keys(h) + [key];
      assert Keys(t)[..|h|] == Keys(h);
      assert t[..|h|] == h;
      t
  }

  /** Replacing one bucket changes the total by the difference of the two counts. */
  lemma {:induction false} TotalReplace(h: seq<Bucket>, i: nat, b: Bucket)
    requires i < |h|
    ensures Total(h[i := b]) == Total(h) - h[i].count + b.count
  {
    var r := h[i := b];
    if i < |h| - 1 {
      TotalReplace(h[..|h| - 1], i, b);
      assert r[..|r| - 1] == h[..|h| - 1][i := b];
    } else {
      assert r[..|r| - 1] == h[..|h| - 1];
    }
  }

  /** How many of the keys equal `key`. */
  function Occurrences(keys: seq<string>, key: string): nat
  {
    if keys == [] then 0
    else Occurrences(keys[..|keys| - 1], key) + (if keys[|keys| - 1] == key then 1 else 0)
  }

  /**
   * `keys.reduce((acc, k) => { acc[k] = (acc[k] || 0) + 1; return acc }, {})`: one bucket
   * per distinct key and no other, each counting the key's occurrences, adding up to the
   * number of keys.
   */
  function Histogram(keys: seq<string>): (r: seq<Bucket>)
    ensures forall k :: CountOf(r, k) == Occurrences(keys, k)
    ensures Total(r) == |keys|
    ensures NoDuplicates(Keys(r))
    ensures forall k :: k in Keys(r) <==> k in keys
  {
    if keys == [] then []
    else
      var init, last := keys[..|keys| - 1], keys[|keys| - 1];
      assert keys == init + [last];
      Tally(Histogram(init), last)
  }

  /** The three dimensions the endpoint buckets by. */
  datatype Dimension = Country | Device | Browser

  /** The default key of a dimension: 'Unknown', 'desktop' and 'Unknown'. */
  function DefaultKey(dim: Dimension): string
  {
    match dim
    case Country => "Unknown"
    case Device => "desktop"
    case Browser => "Unknown"
  }

  /** The field a dimension reads from a click. */
  function Field(info: ClickInfo, dim: Dimension): Option<string>
  {
    match dim
    case Country => info.country
    case Device => info.deviceType
    case Browser => info.browser
  }

  /** `click.country || 'Unknown'` and its two siblings: a missing or empty field takes the default. */
  function KeyOf(info: ClickInfo, dim: Dimension): (r: string)
    ensures Present(Field(info, dim)) ==> r == Field(info, dim).value
    ensures !Present(Field(info, dim)) ==> r == DefaultKey(dim)
  {
    if Present(Field(info, dim)) then Field(info, dim).value else DefaultKey(dim)
  }

  /** The key of every click, in order. */
  function KeysOf(clicks: seq<ClickInfo>, dim: Dimension): (r: seq<string>)
    ensures |r| == |clicks| && forall i :: 0 <= i < |clicks| ==> r[i] == KeyOf(clicks[i], dim)
  {
    seq(|clicks|, i requires 0 <= i < |clicks| => KeyOf(clicks[i], dim))
  }

  /** The clicks recorded for one link, in table order: `.eq('url_id', id)`. */
  function ClicksOf(clicks: seq<Click>, urlId: nat): (r: seq<ClickInfo>)
    ensures |r| <= |clicks|
    ensures forall x :: x in r <==> exists k :: 0 <= k < |clicks| && clicks[k].urlId == urlId && clicks[k].info == x
  {
    if clicks == [] then []
    else
      var last := clicks[|clicks| - 1];
      ClicksOf(clicks[..|clicks| - 1], urlId) + (if last.urlId == urlId then [last.info] else [])
  }

  /** Every row's `click_count` equals the number of analytics rows recorded for it. */
  ghost predicate CountsAgree(urls: seq<UrlRow>, clicks: seq<Click>)
  {
    forall i :: 0 <= i < |urls| ==> urls[i].clickCount == |ClicksOf(clicks, urls[i].id)|
  }

  /** A new click row adds one click to its own link and none to any other. */
  lemma ClicksOfAppend(clicks: seq<Click>, c: Click, id: nat)
    ensures ClicksOf(clicks + [c], id) == ClicksOf(clicks, id) + (if c.urlId == id then [c.info] else [])
  {
    assert (clicks + [c])[..|clicks|] == clicks;
  }

  /** A link no click row refers to has no clicks. */
  lemma {:induction false} ClicksOfNone(clicks: seq<Click>, id: nat)
    requires forall k :: 0 <= k < |clicks| ==> clicks[k].urlId != id
    ensures ClicksOf(clicks, id) == []
  {
    if clicks != [] {
      ClicksOfNone(clicks[..|clicks| - 1], id);
    }
  }

  /** The summary the endpoint returns, without the pass-through url and clicks fields. */
  datatype Summary = Summary(totalClicks: nat, countries: seq<Bucket>, devices: seq<Bucket>, browsers: seq<Bucket>)

  /**
   * `totalClicks` and the three histograms over a link's clicks. Each histogram accounts
   * for every click once: its counts add up to `totalClicks`, and its keys are exactly the
   * keys the clicks produce, with no key twice.
   */
  function Summarize(clicks: seq<ClickInfo>): (r: Summary)
    ensures r.totalClicks == |clicks|
    ensures Total(r.countries) == Total(r.devices) == Total(r.browsers) == |clicks|
    ensures NoDuplicates(Keys(r.countries)) && NoDuplicates(Keys(r.devices)) && NoDuplicates(Keys(r.browsers))
    ensures forall k :: && CountOf(r.countries, k) == Occurrences(KeysOf(clicks, Country), k)
                        && CountOf(r.devices, k) == Occurrences(KeysOf(clicks, Device), k)
                        && CountOf(r.browsers, k) == Occurrences(KeysOf(clicks, Browser), k)
  {
    Summary(|clicks|, Histogram(KeysOf(clicks, Country)), Histogram(KeysOf(clicks, Device)), Histogram(KeysOf(clicks, Browser)))
  }

  /** Clicks whose field is missing or empty. */
  function Missing(clicks: seq<ClickInfo>, dim: Dimension): nat
  {
    if clicks == [] then 0
    else Missing(clicks[..|clicks| - 1], dim) + (if Present(Field(clicks[|clicks| - 1], dim)) then 0 else 1)
  }

  /** Clicks whose field is present and equal to `key`. */
  function Stated(clicks: seq<ClickInfo>, dim: Dimension, key: string): nat
  {
    if clicks == [] then 0
    else Stated(clicks[..|clicks| - 1], dim, key) + (if Field(clicks[|clicks| - 1], dim) == Some(key) && key != "" then 1 else 0)
  }

  /**
   * The default bucket collects the clicks whose field is missing or empty, together with
   * those that state the default key themselves; any other key counts only the clicks that state it.
   */
  lemma {:induction false} DefaultBucket(clicks: seq<ClickInfo>, dim: Dimension, key: string)
    ensures Occurrences(KeysOf(clicks, dim), key)
         == Stated(clicks, dim, key) + (if key == DefaultKey(dim) then Missing(clicks, dim) else 0)
  {
    if clicks != [] {
      var init := clicks[..|clicks| - 1];
      DefaultBucket(init, dim, key);
      assert KeysOf(clicks, dim)[..|clicks| - 1] == KeysOf(init, dim);
    }
  }
}

=== FILE: blog_post.dfy ===
/** The reading-time estimate shown on a blog post. */
module BlogPost {
  import opened Text

  /** `content.split(' ').length`: one more word than there are spaces. */
  function WordCount(content: string): (w: nat)
    ensures w == CountChar(content, ' ') + 1
  {
    SplitCount(content, ' ');
    |SplitOn(content, ' ')|
  }

  /** `Math.ceil(words / 200)`: minutes at 200 words a minute, rounded up. */
  function ReadTime(content: string): (m: nat)
    ensures m >= 1
    ensures (m - 1) * 200 < WordCount(content) <= m * 200
  {
    (WordCount(content) + 199) / 200
  }

  /** A space appended at the end is counted. */
  lemma {:induction false} CountCharAppend(s: string, c: char)
    ensures CountChar(s + [c], c) == CountChar(s, c) + 1
  {
    if s != [] {
      assert (s + [c])[1..] == s[1..] + [c];
      CountCharAppend(s[1..], c);
    }
  }

  /** More spaces never mean less reading time. */
  lemma ReadTimeMonotone(a: string, b: string)
    requires CountChar(a, ' ') <= CountChar(b, ' ')
    ensures ReadTime(a) <= ReadTime(b)
  {
  }

  /** Adding a space never lowers the estimate. */
  lemma ReadTimeGrows(s: string)
    ensures ReadTime(s + " ") >= ReadTime(s)
  {
    CountCharAppend(s, ' ');
    ReadTimeMonotone(s, s + " ");
  }

  /** Empty content reads in one minute; 1 to 200 words read in one minute and 201 words in two. */
  lemma ReadTimeBands(content: string)
    ensures ReadTime("") == 1
    ensures WordCount(content) <= 200 ==> ReadTime(content) == 1
    ensures WordCount(content) == 201 ==> ReadTime(content) == 2
  {
    assert CountChar("", ' ') == 0;
  }
}

=== FILE: codes.dfy ===
/** Short codes: the random six-character generator and the rule for custom codes. */
module Codes {

  /** `n` consecutive characters starting at `first`. */
  function CharRange(first: char, n: nat): (r: string)
    requires first as int + n <= 0xD800
    ensures |r| == n && forall i :: 0 <= i < n ==> r[i] as int == first as int + i
  {
    seq(n, i requires 0 <= i < n => (first as int + i) as char)
  }

  /**
   * The characters a generated code is drawn from, in the order the generator indexes them:
   * "ABCDEFGHIJKLMNOPQRSTUVWXYZabcdefghijklmnopqrstuvwxyz0123456789".
   */
  const Alphabet: string := CharRange('A', 26) + CharRange('a', 26) + CharRange('0', 10)

  /** Length of a generated code. */
  const CodeLength: nat := 6

  predicate IsAlphanumeric(c: char)
  {
    ('A' <= c <= 'Z') || ('a' <= c <= 'z') || ('0' <= c <= '9')
  }

  /** The character class `[a-zA-Z0-9-_]`. */
  predicate IsCodeChar(c: char)
  {
    IsAlphanumeric(c) || c == '-' || c == '_'
  }

  /**
   * `/^[a-zA-Z0-9-_]{3,20}$/.test(code)`. A valid code is one path segment and carries no query.
   */
  predicate IsValidCustomCode(code: string)
    ensures IsValidCustomCode(code) ==> '/' !in code && '?' !in code
  {
    3 <= |code| <= 20 && forall i :: 0 <= i < |code| ==> IsCodeChar(code[i])
  }

  /**
   * The six indices `Math.floor(Math.random() * chars.length)` produces for one code.
   * The random source is a parameter of the model; each index lies in [0, 62).
   */
  predicate IsDraw(draw: seq<int>)
  {
    |draw| == CodeLength && forall i :: 0 <= i < |draw| ==> 0 <= draw[i] < |Alphabet|
  }

  /** The alphabet holds exactly the 62 ASCII letters and digits. */
  lemma AlphabetIsAlphanumeric()
    ensures |Alphabet| == 62
    ensures forall i :: 0 <= i < |Alphabet| ==> IsAlphanumeric(Alphabet[i])
    ensures forall c :: IsAlphanumeric(c) ==> c in Alphabet
  {
    forall c | IsAlphanumeric(c)
      ensures c in Alphabet
    {
      if 'A' <= c <= 'Z' {
        assert Alphabet[c as int - 'A' as int] == c;
      } else if 'a' <= c <= 'z' {
        assert Alphabet[26 + (c as int - 'a' as int)] == c;
      } else {
        assert Alphabet[52 + (c as int - '0' as int)] == c;
      }
    }
  }

  /** The code a draw stands for: the alphabet character at each drawn index. */
  function GeneratedCode(draw: seq<int>): (r: string)
    requires IsDraw(draw)
    ensures |r| == CodeLength
  {
    seq(CodeLength, i requires 0 <= i < CodeLength => Alphabet[draw[i]])
  }

  /** A generated code is six letters or digits, so it passes the custom-code rule and holds no '/'. */
  lemma GeneratedCodeValid(draw: seq<int>)
    requires IsDraw(draw)
    ensures forall i :: 0 <= i < CodeLength ==> IsAlphanumeric(GeneratedCode(draw)[i])
    ensures IsValidCustomCode(GeneratedCode(draw)) && '/' !in GeneratedCode(draw)
  {
    AlphabetIsAlphanumeric();
  }

  /** `generateShortCode()`: one alphabet character per drawn index, appended in a loop. */
  method GenerateShortCode(draw: seq<int>) returns (code: string)
    requires IsDraw(draw)
    ensures code == GeneratedCode(draw)
    ensures |code| == CodeLength && IsValidCustomCode(code) && '/' !in code
  {
    code := "";
    var i := 0;
    while i < CodeLength
      invariant 0 <= i <= CodeLength
      invariant |code| == i
      invariant forall k :: 0 <= k < i ==> code[k] == Alphabet[draw[k]]
    {
      code := code + [Alphabet[draw[i]]];
      i := i + 1;
    }
    GeneratedCodeValid(draw);
  }
}

=== FILE: common.dfy ===
/** Small datatypes shared by every module of the model. */
module Common {

  /** A value that may be absent: a missing header or body field, a row that was not found. */
  datatype Option<+T> = None | Some(value: T)

  /** The HTTP methods the handlers distinguish. */
  datatype HttpMethod = Get | Post | Put | Delete | Options | OtherMethod

  /** JavaScript truthiness of an optional string: a missing value and "" are both falsy. */
  predicate Present(o: Option<string>)
  {
    o.Some? && o.value != ""
  }

  /** `req.headers['x-user-id'] || null`: the caller's user id, or none when the header is missing or empty. */
  function UserIdOf(header: Option<string>): (r: Option<string>)
    ensures r.Some? <==> Present(header)
    ensures r.Some? ==> r == header && r.value != ""
  {
    if Present(header) then header else None
  }
}

=== FILE: dashboard.dfy ===
/** The user dashboard: its totals, active-link count and average, and the alias-edit state. */
module DashboardView {
  import opened Common

  /** A link as the dashboard lists it; a missing click count is absent. */
  datatype Item = Item(id: nat, shortCode: string, clickCount: Option<int>)

  /** `url.click_count || 0`. */
  function Clicks(item: Item): int
  {
    if item.clickCount.Some? then item.clickCount.value else 0
  }

  /** `urls.reduce((sum, url) => sum + (url.click_count || 0), 0)`. */
  function TotalClicks(items: seq<Item>): (t: int)
    ensures (forall i :: 0 <= i < |items| ==> Clicks(items[i]) >= 0) ==> t >= 0
  {
    if items == [] then 0 else TotalClicks(items[..|items| - 1]) + Clicks(items[|items| - 1])
  }

  /** The total over two lists is the sum of their totals. */
  lemma {:induction false} TotalAppend(a: seq<Item>, b: seq<Item>)
    ensures TotalClicks(a + b) == TotalClicks(a) + TotalClicks(b)
  {
    if b == [] {
      assert a + b == a;
    } else {
      TotalAppend(a, b[..|b| - 1]);
      assert (a + b)[..|a + b| - 1] == a + b[..|b| - 1];
    }
  }

  /** The link was clicked: `url.click_count > 0` (a missing count is not). */
  predicate IsActive(item: Item)
    ensures IsActive(item) ==> Clicks(item) >= 1
  {
    item.clickCount.Some? && item.clickCount.value > 0
  }

  /** `urls.filter(url => url.click_count > 0).length`. */
  function ActiveCount(items: seq<Item>): (n: nat)
    ensures n <= |items|
  {
    if items == [] then 0 else ActiveCount(items[..|items| - 1]) + (if IsActive(items[|items| - 1]) then 1 else 0)
  }

  /** With no negative counts, every active link contributes at least one click to the total. */
  lemma {:induction false} ActiveAtMostTotal(items: seq<Item>)
    requires forall i :: 0 <= i < |items| ==> Clicks(items[i]) >= 0
    ensures ActiveCount(items) <= TotalClicks(items)
  {
    if items != [] {
      ActiveAtMostTotal(items[..|items| - 1]);
    }
  }

  /**
   * `Math.round(totalClicks / Math.max(urls.length, 1))`: the nearest integer to the mean,
   * halves rounded up, over a divisor that is never zero.
   */
  function AverageClicks(items: seq<Item>): (r: int)
    ensures var d := if |items| > 1 then |items| else 1;
      2 * r * d - d <= 2 * TotalClicks(items) < 2 * r * d + d
  {
    var d := if |items| > 1 then |items| else 1;
    RoundedHalfUp(TotalClicks(items), d);
    (2 * TotalClicks(items) + d) / (2 * d)
  }

  /** `(2t + d) / (2d)` is `t / d` rounded to the nearest integer, halves up. */
  lemma RoundedHalfUp(t: int, d: int)
    requires d >= 1
    ensures var r := (2 * t + d) / (2 * d);
      2 * r * d - d <= 2 * t < 2 * r * d + d
  {
    var r := (2 * t + d) / (2 * d);
    assert r * (2 * d) <= 2 * t + d < r * (2 * d) + 2 * d;
  }

  /** With no links the average is 0. */
  lemma AverageOfNone()
    ensures AverageClicks([]) == 0
  {
  }

  /** The edit state of the list: the row being edited and the text in its input. */
  datatype EditState = EditState(editingId: Option<nat>, editValue: string)

  /** `handleEdit(id, currentCode)`. */
  function StartEdit(s: EditState, id: nat, currentCode: string): (r: EditState)
    ensures r.editingId == Some(id) && r.editValue == currentCode
  {
    EditState(Some(id), currentCode)
  }

  /** Cancel, and a successful save: `setEditingId(null)`; the input text stays. */
  function StopEdit(s: EditState): (r: EditState)
    ensures r.editingId.None? && r.editValue == s.editValue
  {
    s.(editingId := None)
  }

  /** The row shows its input. */
  predicate IsEditing(s: EditState, id: nat)
  {
    s.editingId == Some(id)
  }

  /** Edit opens exactly one row, on its current code; cancel closes every row. */
  lemma EditThenCancel(s: EditState, id: nat, code: string)
    ensures forall other: nat :: IsEditing(StartEdit(s, id, code), other) <==> other == id
    ensures StartEdit(s, id, code).editValue == code
    ensures forall other: nat :: !IsEditing(StopEdit(StartEdit(s, id, code)), other)
  {
  }
}

=== FILE: home.dfy ===
/**
 * The shortening form on the home page: the custom-code input filter, the bulk
 * text split, the request body built for each mode, the short code read back from
 * the reply for the QR image, and when the submit button is disabled.
 */
module HomeForm {
  import opened Common
  import opened Text
  import opened Codes
  import opened Shortening

  /** `value.replace(/[^a-zA-Z0-9-_]/g, '')`: keep the code characters. */
  function Sanitize(s: string): (r: string)
    ensures |r| <= |s|
    ensures forall i :: 0 <= i < |r| ==> IsCodeChar(r[i])
  {
    if s == [] then [] else Sanitize(s[..|s| - 1]) + (if IsCodeChar(s[|s| - 1]) then [s[|s| - 1]] else [])
  }

  /** A character survives the filter exactly when it is a code character of the input. */
  lemma {:induction false} SanitizeKeeps(s: string)
    ensures forall c :: c in Sanitize(s) <==> c in s && IsCodeChar(c)
  {
    if s != [] {
      var init := s[..|s| - 1];
      SanitizeKeeps(init);
      assert s == init + [s[|s| - 1]];
    }
  }

  /** The filter works piece by piece, so it keeps the surviving characters in their order. */
  lemma {:induction false} SanitizeAppend(a: string, b: string)
    ensures Sanitize(a + b) == Sanitize(a) + Sanitize(b)
  {
    if b == [] {
      assert a + b == a;
    } else {
      SanitizeAppend(a, b[..|b| - 1]);
      assert (a + b)[..|a + b| - 1] == a + b[..|b| - 1];
    }
  }

  /** Text made only of code characters passes unchanged; in particular the filter is idempotent. */
  lemma {:induction false} SanitizeIdentity(s: string)
    requires forall i :: 0 <= i < |s| ==> IsCodeChar(s[i])
    ensures Sanitize(s) == s
  {
    if s != [] {
      SanitizeIdentity(s[..|s| - 1]);
    }
  }

  lemma SanitizeIdempotent(s: string)
    ensures Sanitize(Sanitize(s)) == Sanitize(s)
  {
    SanitizeIdentity(Sanitize(s));
  }

  /**
   * The filtered input always meets the character rule of `isValidCustomCode`; with the
   * input's 20-character limit, it is a valid code exactly when it has 3 characters or more.
   */
  lemma SanitizedCodeValid(typed: string)
    requires |typed| <= 20
    ensures IsValidCustomCode(Sanitize(typed)) <==> |Sanitize(typed)| >= 3
  {
  }

  /** `bulkUrls.split('\n').filter(url => url.trim())`: the non-blank lines, untrimmed, in order. */
  function BulkLines(text: string): (r: seq<string>)
    ensures |r| <= CountChar(text, '\n') + 1
    ensures forall i :: 0 <= i < |r| ==> '\n' !in r[i] && !IsBlank(r[i])
    ensures forall x :: x in r <==> x in SplitOn(text, '\n') && !IsBlank(x)
  {
    SplitCount(text, '\n');
    NonBlankMembers(SplitOn(text, '\n'));
    assert forall x :: x in SplitOn(text, '\n') ==> '\n' !in x;
    NonBlank(SplitOn(text, '\n'))
  }

  /** A list of non-blank entries passes the filter unchanged. */
  lemma {:induction false} NonBlankAll(entries: seq<string>)
    requires forall i :: 0 <= i < |entries| ==> !IsBlank(entries[i])
    ensures NonBlank(entries) == entries
  {
    if entries != [] {
      NonBlankAll(entries[..|entries| - 1]);
    }
  }

  /** Non-blank lines typed one per line come back as typed, and the server's own filter keeps them all. */
  lemma BulkLinesOfJoin(lines: seq<string>)
    requires |lines| >= 1
    requires forall i :: 0 <= i < |lines| ==> '\n' !in lines[i] && !IsBlank(lines[i])
    ensures BulkLines(JoinWith(lines, '\n')) == lines
    ensures NonBlank(BulkLines(JoinWith(lines, '\n'))) == lines
  {
    SplitJoin(lines, '\n');
    NonBlankAll(lines);
  }

  /** The two input modes. */
  datatype Mode = SingleMode | BulkMode

  /** The JSON body sent to `/api/shorten`. */
  function RequestBody(mode: Mode, longUrl: string, customCode: string, bulkText: string): (r: ShortenRequest)
    ensures mode == SingleMode ==> r.urls.None? && r.longUrl == Some(longUrl)
    ensures mode == SingleMode ==> (r.customCode.Some? <==> customCode != "") && (r.customCode.Some? ==> r.customCode.value == customCode)
    ensures mode == BulkMode ==> r.longUrl.None? && r.customCode.None? && r.urls == Some(BulkLines(bulkText))
  {
    match mode
    case SingleMode => ShortenRequest(Some(longUrl), if customCode == "" then None else Some(customCode), None)
    case BulkMode => ShortenRequest(None, None, Some(BulkLines(bulkText)))
  }

  /** A body in bulk mode carries only entries the server's filter keeps, so it creates at most one link per entry. */
  lemma BulkBodyAlreadyFiltered(bulkText: string)
    ensures NonBlank(RequestBody(BulkMode, "", "", bulkText).urls.value) == BulkLines(bulkText)
  {
    NonBlankIdempotent(SplitOn(bulkText, '\n'));
  }

  /** `data.shortUrl.split('/').pop()`. */
  function LastSegment(url: string): (r: string)
    ensures '/' !in r
    ensures '/' !in url ==> r == url
  {
    var parts := SplitOn(url, '/');
    assert '/' !in url ==> parts == [url] by {
      if '/' !in url {
        NoSeparatorSplit(url, '/');
      }
    }
    parts[|parts| - 1]
  }

  /** The QR request names the code of the short URL it was given, for any code without a '/'. */
  lemma QrCodeOfShortUrl(base: string, code: string)
    requires '/' !in code
    ensures LastSegment(ShortUrl(base, code)) == code
  {
    SplitLast(base, '/', code);
  }

  /** A generated code is always read back correctly. */
  lemma QrCodeOfGenerated(base: string, draw: seq<int>)
    requires IsDraw(draw)
    ensures LastSegment(ShortUrl(base, GeneratedCode(draw))) == GeneratedCode(draw)
  {
    GeneratedCodeValid(draw);
    QrCodeOfShortUrl(base, GeneratedCode(draw));
  }

  /**
   * `loading || (mode === 'single' ? !longUrl : !bulkUrls)`. A pending request always
   * disables the button, and an enabled single-mode submit always sends a present long
   * URL, so it never meets the server's 400 for a missing one.
   */
  predicate SubmitDisabled(loading: bool, mode: Mode, longUrl: string, bulkText: string)
    ensures loading ==> SubmitDisabled(loading, mode, longUrl, bulkText)
    ensures mode == SingleMode && !SubmitDisabled(loading, mode, longUrl, bulkText) ==>
      forall customCode :: Present(RequestBody(SingleMode, longUrl, customCode, bulkText).longUrl)
  {
    loading || (if mode == SingleMode then longUrl == "" else bulkText == "")
  }
}

=== FILE: index_api.dfy ===
/**
 * The serverless catch-all handler: `POST /api/shorten` with the looser scheme
 * rule and no custom-code validation, 404 for any other GET under `/api/`, and
 * a redirect for every other request, which raises the click counter without
 * recording an analytics row.
 */
module IndexApi {
  import opened Common
  import opened Text
  import opened Codes
  import opened Urls
  import opened Tables
  import opened Shortening
  import opened Analytics

  /** The replies of the handler. */
  datatype Reply =
    | Empty(status: int)                  // OPTIONS preflight
    | Failure(status: int, error: string) // 400, 404, 409
    | Created(shortUrl: string)           // { shortUrl }
    | Found(location: string)             // 302

  /** `url.split('?')[0]`: the path, without the query string. */
  function PathOf(url: string): (r: string)
    ensures '?' !in r
  {
    SplitOn(url, '?')[0]
  }

  /** The path is the whole URL when it has no query. */
  lemma PathOfPlain(url: string)
    requires '?' !in url
    ensures PathOf(url) == url
  {
    NoSeparatorSplit(url, '?');
  }

  /** The path is everything before the first `?`; the query does not matter. */
  lemma PathOfQuery(path: string, query: string)
    requires '?' !in path
    ensures PathOf(path + "?" + query) == path
  {
    SplitFirst(path, '?', query);
  }

  /** The path is a prefix of the URL. */
  lemma PathIsPrefix(url: string)
    ensures |PathOf(url)| <= |url| && url[..|PathOf(url)|] == PathOf(url)
  {
    var parts := SplitOn(url, '?');
    JoinSplit(url, '?');
    if |parts| > 1 {
      assert JoinWith(parts, '?') == parts[0] + ['?'] + JoinWith(parts[1..], '?');
    }
  }

  /** `urlPath.substring(1)`: the short code a redirect looks up. */
  function CodeOfPath(path: string): (r: string)
    ensures |path| >= 1 ==> [path[0]] + r == path
    ensures |path| == 0 ==> r == ""
  {
    if |path| == 0 then "" else path[1..]
  }

  /** The base of the short URL: the request host over http when it mentions localhost, the public domain otherwise. */
  function IndexBase(host: string): (r: string)
    ensures Contains(host, "localhost") ==> r == "http://" + host
    ensures !Contains(host, "localhost") ==> r == "https://u2l.in"
  {
    if Contains(host, "localhost") then "http://" + host else "https://u2l.in"
  }

  /** The request is the shorten endpoint, which lies under the API prefix. */
  predicate IsShorten(verb: HttpMethod, path: string)
    ensures IsShorten(verb, path) ==> StartsWith(path, "/api/")
  {
    verb == Post && path == "/api/shorten"
  }

  /** The request is some other API read; no request is both this and a shorten. */
  predicate IsApiRead(verb: HttpMethod, path: string)
    ensures IsApiRead(verb, path) ==> !IsShorten(verb, path)
  {
    verb == Get && StartsWith(path, "/api/")
  }

  /**
   * The handler. Routing looks at the method and the path only. Shortening refuses a
   * missing long URL, adds `https://` unless the URL starts with `http`, takes a present
   * custom code as it is, and stores no owner. Every request that is neither a shorten
   * nor an API read is a redirect lookup.
   */
  method Handle(store: Store, verb: HttpMethod, url: string, body: ShortenRequest, host: string, draw: seq<int>)
    returns (reply: Reply)
    requires store.Valid() && IsDraw(draw)
    modifies store
    ensures store.Valid()
    ensures store.clicks == old(store.clicks) && store.subscriptions == old(store.subscriptions)
    ensures verb == Options ==> reply == Empty(200) && unchanged(store)
    ensures verb != Options && IsShorten(verb, PathOf(url)) && !Present(body.longUrl) ==>
      reply == Failure(400, "Long URL is required") && unchanged(store)
    ensures verb != Options && IsShorten(verb, PathOf(url)) && Present(body.longUrl) ==>
      var code := if Present(body.customCode) then body.customCode.value else GeneratedCode(draw);
      if CodeIndex(old(store.urls), code).Some? then
        && reply == Failure(409, "Custom URL already exists")
        && store.urls == old(store.urls) && store.nextId == old(store.nextId)
      else
        && reply == Created(ShortUrl(IndexBase(host), code))
        && store.urls == old(store.urls) + [UrlRow(old(store.nextId), code, NormalizeLoose(body.longUrl.value), None, 0)]
        && store.nextId == old(store.nextId) + 1
    ensures verb != Options && IsApiRead(verb, PathOf(url)) ==> reply == Failure(404, "API endpoint not found") && unchanged(store)
    ensures verb != Options && !IsShorten(verb, PathOf(url)) && !IsApiRead(verb, PathOf(url)) ==>
      var code := CodeOfPath(PathOf(url));
      if code == "" then
        reply == Failure(404, "Short code required") && unchanged(store)
      else if CodeIndex(old(store.urls), code).None? then
        reply == Failure(404, "Short URL not found") && unchanged(store)
      else
        var i := CodeIndex(old(store.urls), code).value;
        && reply == Found(old(store.urls)[i].longUrl)
        && store.urls == old(store.urls)[i := old(store.urls)[i].(clickCount := old(store.urls)[i].clickCount + 1)]
        && store.nextId == old(store.nextId)
  {
    if verb == Options {
      return Empty(200);
    }
    var path := PathOf(url);
    if IsShorten(verb, path) {
      if !Present(body.longUrl) {
        return Failure(400, "Long URL is required");
      }
      var processed := NormalizeLoose(body.longUrl.value);
      var code;
      if Present(body.customCode) {
        code := body.customCode.value;
      } else {
        code := GenerateShortCode(draw);
      }
      var inserted := store.InsertUrl(code, processed, None);
      if !inserted {
        return Failure(409, "Custom URL already exists");
      }
      reply := Created(ShortUrl(IndexBase(host), code));
    } else if IsApiRead(verb, path) {
      reply := Failure(404, "API endpoint not found");
    } else {
      var code := CodeOfPath(path);
      if code == "" {
        return Failure(404, "Short code required");
      }
      var i := CodeIndex(store.urls, code);
      if i.None? {
        return Failure(404, "Short URL not found");
      }
      var longUrl := store.urls[i.value].longUrl;
      store.IncrementClicks(i.value);
      reply := Found(longUrl);
    }
  }

  /**
   * This redirect raises `click_count` but records no analytics row, so on a store where
   * every count agreed with the analytics rows, the redirected link's count no longer does.
   */
  lemma RedirectSkipsAnalytics(urls: seq<UrlRow>, clicks: seq<Click>, i: nat)
    requires i < |urls| && CountsAgree(urls, clicks)
    ensures !CountsAgree(urls[i := urls[i].(clickCount := urls[i].clickCount + 1)], clicks)
  {
    var after := urls[i := urls[i].(clickCount := urls[i].clickCount + 1)];
    assert after[i].clickCount != |ClicksOf(clicks, after[i].id)|;
  }
}

=== FILE: quota.dfy ===
/**
 * The per-user monthly quota ledger: the admission rule applied before links
 * are created, the usage charge applied after, and the plan and reset updates.
 */
module Quota {
  import opened Common
  import opened Tables

  const FreeLimit: int := 25
  const PremiumLimit: int := 1000

  /** The row created for a user who has none: plan free, limit 25, usage 0. */
  function DefaultSubscription(): Subscription
  {
    Subscription("free", FreeLimit, 0)
  }

  /** The row a possibly missing one stands for. */
  function Effective(row: Option<Subscription>): Subscription
  {
    match row
    case Some(s) => s
    case None => DefaultSubscription()
  }

  /** `.eq('user_id', uid).single()` on `user_subscriptions`. */
  function Lookup(subs: map<string, Subscription>, uid: string): (r: Option<Subscription>)
    ensures r.Some? <==> uid in subs
    ensures r.Some? ==> r.value == subs[uid]
  {
    if uid in subs then Some(subs[uid]) else None
  }

  /** Usage has not passed the limit. */
  predicate Within(s: Subscription)
  {
    0 <= s.currentUsage <= s.monthlyLimit
  }

  /** What `checkUsageLimit` returns: `{ allowed, remaining, plan }`. */
  datatype UsageCheck = UsageCheck(allowed: bool, remaining: Option<int>, plan: Option<string>)

  /**
   * `checkUsageLimit(supabase, userId, urlCount)` once the user's row has been read.
   * Anonymous callers are always admitted; a user without a row is judged exactly
   * as if the default row existed.
   */
  function CheckUsageLimit(userId: Option<string>, row: Option<Subscription>, urlCount: int): (c: UsageCheck)
    ensures userId.None? ==> c.allowed && c.remaining.None? && c.plan.None?
    ensures userId.Some? ==>
      var s := Effective(row);
      && (c.allowed <==> s.currentUsage + urlCount <= s.monthlyLimit)
      && c.remaining == Some(s.monthlyLimit - s.currentUsage - urlCount)
      && c.plan == (if row.Some? then Some(s.planType) else None)
  {
    if userId.None? then UsageCheck(true, None, None)
    else
      match row
      case None => UsageCheck(urlCount <= 25, Some(25 - urlCount), None)
      case Some(s) =>
        var remaining := s.monthlyLimit - s.currentUsage;
        UsageCheck(remaining >= urlCount, Some(remaining - urlCount), Some(s.planType))
  }

  /** The body of the 429 reply: `{ remaining: Math.max(0, remaining + n), plan, upgradeRequired: plan === 'free' }`. */
  datatype Denial = Denial(remaining: int, plan: Option<string>, upgradeRequired: bool)

  /**
   * The 429 body from a check's result: the remaining count the check reported, with the
   * request's own count added back and never below zero; an upgrade offer exactly on the free plan.
   */
  function DenialFor(c: UsageCheck, urlCount: int): (d: Denial)
    requires c.remaining.Some?
    ensures d.remaining >= 0 && d.remaining >= c.remaining.value + urlCount
    ensures c.remaining.value + urlCount >= 0 ==> d.remaining == c.remaining.value + urlCount
    ensures d.plan == c.plan && (d.upgradeRequired <==> c.plan == Some("free"))
  {
    var r := c.remaining.value + urlCount;
    Denial(if r < 0 then 0 else r, c.plan, c.plan == Some("free"))
  }

  /**
   * A refused request reports what is left before it, never below zero, and asks for an
   * upgrade exactly when the user has a row on the free plan (a user without a row gets none).
   */
  lemma DenialReportsRemaining(uid: string, row: Option<Subscription>, urlCount: int)
    ensures var s := Effective(row);
      var d := DenialFor(CheckUsageLimit(Some(uid), row, urlCount), urlCount);
      && d.remaining == (if s.monthlyLimit - s.currentUsage < 0 then 0 else s.monthlyLimit - s.currentUsage)
      && (d.upgradeRequired <==> row.Some? && row.value.planType == "free")
  {
  }

  /** The table after `checkUsageLimit` ran for `uid`: a missing row has been inserted with the defaults. */
  function WithDefault(subs: map<string, Subscription>, uid: string): (r: map<string, Subscription>)
    ensures r.Keys == subs.Keys + {uid}
    ensures r[uid] == Effective(Lookup(subs, uid))
    ensures forall u :: u in subs && u != uid ==> r[u] == subs[u]
  {
    if uid in subs then subs else subs[uid := DefaultSubscription()]
  }

  /**
   * The table after `created` links were charged to `uid`: a missing row is created as
   * free/25 with usage `created`, an existing row's usage grows by `created`.
   */
  function Charge(subs: map<string, Subscription>, uid: string, created: int): (r: map<string, Subscription>)
    ensures r.Keys == subs.Keys + {uid}
    ensures r[uid] == Effective(Lookup(subs, uid)).(currentUsage := Effective(Lookup(subs, uid)).currentUsage + created)
    ensures forall u :: u in subs && u != uid ==> r[u] == subs[u]
  {
    if uid !in subs then subs[uid := Subscription("free", FreeLimit, created)]
    else subs[uid := subs[uid].(currentUsage := subs[uid].currentUsage + created)]
  }

  /**
   * Admission keeps the ledger within its limit: a user admitted for `n` links who then
   * creates at most `n` of them ends within the limit, with usage grown by exactly that number.
   */
  lemma {:induction false} AdmissionKeepsWithinLimit(subs: map<string, Subscription>, uid: string, n: int, created: nat)
    requires CheckUsageLimit(Some(uid), Lookup(subs, uid), n).allowed
    requires created <= n
    requires Effective(Lookup(subs, uid)).currentUsage >= 0
    ensures var after := Charge(WithDefault(subs, uid), uid, created)[uid];
      && Within(after)
      && after.currentUsage == Effective(Lookup(subs, uid)).currentUsage + created
      && after.monthlyLimit == Effective(Lookup(subs, uid)).monthlyLimit
  {
    var w := WithDefault(subs, uid);
    assert Lookup(w, uid) == Some(Effective(Lookup(subs, uid)));
  }

  /** `monthly_limit: plan_type === 'premium' ? 1000 : 25`. */
  function LimitFor(plan: string): (limit: int)
    ensures limit == PremiumLimit <==> plan == "premium"
    ensures limit == FreeLimit <==> plan != "premium"
  {
    if plan == "premium" then PremiumLimit else FreeLimit
  }

  /** The admin `update_plan` action: new plan, its limit, usage untouched. */
  function SetPlan(s: Subscription, plan: string): (r: Subscription)
    ensures r.planType == plan && r.currentUsage == s.currentUsage
    ensures r.monthlyLimit == 1000 <==> plan == "premium"
    ensures r.monthlyLimit == 25 <==> plan != "premium"
  {
    s.(planType := plan, monthlyLimit := LimitFor(plan))
  }

  /** The user's own upgrade (POST /api/subscription): premium, limit 1000, usage untouched. */
  function Upgrade(s: Subscription): (r: Subscription)
    ensures r.planType == "premium" && r.monthlyLimit == PremiumLimit && r.currentUsage == s.currentUsage
  {
    s.(planType := "premium", monthlyLimit := 1000)
  }

  /** The user's upgrade and the admin's `update_plan` to premium produce the same row. */
  lemma UpgradeIsSetPlanPremium(s: Subscription)
    ensures Upgrade(s) == SetPlan(s, "premium")
  {
  }

  /** The admin `reset_usage` action. */
  function ResetUsage(s: Subscription): (r: Subscription)
    ensures r.currentUsage == 0 && r.planType == s.planType && r.monthlyLimit == s.monthlyLimit
  {
    s.(currentUsage := 0)
  }

  /** Upgrading and resetting keep a row within its limit; a reset brings any row with a non-negative limit back within it. */
  lemma UpgradeAndResetKeepWithin(s: Subscription)
    ensures Within(s) && s.monthlyLimit <= PremiumLimit ==> Within(Upgrade(s))
    ensures s.monthlyLimit >= 0 ==> Within(ResetUsage(s))
  {
  }

  /**
   * A downgrade does not lower usage: a premium user with 500 links this month is over the
   * free limit afterwards, and is then refused even a request for zero links.
   */
  lemma DowngradeCanExceedLimit()
    ensures var s := Subscription("premium", PremiumLimit, 500);
      && Within(s)
      && !Within(SetPlan(s, "free"))
      && !CheckUsageLimit(Some("u"), Some(SetPlan(s, "free")), 0).allowed
      && DenialFor(CheckUsageLimit(Some("u"), Some(SetPlan(s, "free")), 1), 1).remaining == 0
  {
  }
}

=== FILE: server.dfy ===
/**
 * The Express server: bearer-token authentication, link creation (single and bulk),
 * the owner's link list, the per-link analytics, alias edits, deletion, the
 * redirect that records a click, and the public click statistics.
 */
module ServerApp {
  import opened Common
  import opened Text
  import opened Codes
  import opened Urls
  import opened Tables
  import opened Shortening
  import opened Analytics

  /** The authenticated caller: its id is the raw `x-user-id` header, which may be missing. */
  datatype AuthUser = AuthUser(id: Option<string>)

  /** The replies of the endpoints. */
  datatype Reply =
    | Failure(status: int, error: string)                          // 400, 401, 404, 409
    | Created(shortUrl: string)                                    // { shortUrl }
    | BulkCreated(results: seq<BulkResult>)                        // { results }
    | UrlList(urls: seq<UrlRow>)                                   // { urls }
    | Report(url: UrlRow, clicks: seq<ClickInfo>, summary: Summary) // analytics
    | Done                                                         // { success: true }
    | Found(location: string)                                      // 302
    | ClickStats(shortCode: string, clickCount: int)               // stats

  const AuthRequired := "Authentication required"
  const CodeFormat := "Custom code must be 3-20 characters long and contain only letters, numbers, hyphens, and underscores"

  /** Removing the first `Bearer ` leaves nothing exactly when the header is empty or is `Bearer ` alone. */
  lemma TokenEmpty(header: string)
    ensures ReplaceFirst(header, "Bearer ", "") == "" <==> header == "" || header == "Bearer "
  {
    var pat := "Bearer ";
    match IndexOf(header, pat)
    case None =>
      if header == pat {
        assert OccursAt(header, pat, 0);
      }
    case Some(k) =>
      if |header| == |pat| {
        assert header == header[k..k + |pat|];
      }
  }

  /**
   * `getAuthUser`: the token is the Authorization header with its first `Bearer `
   * removed; no header or an empty token means no user.
   */
  function GetAuthUser(authorization: Option<string>, userHeader: Option<string>): (r: Option<AuthUser>)
    ensures r.None? <==> authorization.None? || authorization.value == "" || authorization.value == "Bearer "
    ensures r.Some? ==> r.value.id == userHeader
  {
    if authorization.None? then None
    else
      TokenEmpty(authorization.value);
      if ReplaceFirst(authorization.value, "Bearer ", "") == "" then None else Some(AuthUser(userHeader))
  }

  /** `user?.id || null`: the owner recorded on a new row. */
  function Owner(user: Option<AuthUser>): (r: Option<string>)
    ensures r.Some? <==> user.Some? && Present(user.value.id)
    ensures r.Some? ==> r == user.value.id
  {
    if user.Some? then UserIdOf(user.value.id) else None
  }

  /** The base of the short URLs: the request's host over https in production, the local server otherwise. */
  function BaseUrl(production: bool, host: string): (r: string)
    ensures production ==> r == "https://" + host
    ensures !production ==> r == "http://localhost:5001"
  {
    if production then "https://" + host else "http://localhost:5001"
  }

  /**
   * `POST /api/shorten`. A body with `urls` creates one link per non-blank entry, each
   * trimmed and normalised. Otherwise a missing long URL is refused, the long URL is
   * normalised without trimming, a present custom code must pass `isValidCustomCode`,
   * and a taken code is a conflict.
   */
  method Shorten(store: Store, body: ShortenRequest, user: Option<AuthUser>, production: bool, host: string, draws: seq<seq<int>>)
    returns (reply: Reply)
    requires store.Valid() && EnoughDraws(body, draws)
    modifies store
    ensures store.Valid()
    ensures store.clicks == old(store.clicks) && store.subscriptions == old(store.subscriptions)
    ensures body.urls.Some? ==>
      && reply.BulkCreated?
      && store.urls == old(store.urls) + NewRows(reply.results, Owner(user), old(store.nextId))
      && store.nextId == old(store.nextId) + |reply.results|
      && reply.results == BulkRun(old(store.urls), body.urls.value, draws, BaseUrl(production, host))
      && |reply.results| <= |NonBlank(body.urls.value)|
    ensures body.urls.None? && !Present(body.longUrl) ==> reply == Failure(400, "Long URL is required") && unchanged(store)
    ensures body.urls.None? && Present(body.longUrl) && Present(body.customCode) && !IsValidCustomCode(body.customCode.value) ==>
      reply == Failure(400, CodeFormat) && unchanged(store)
    ensures body.urls.None? && Present(body.longUrl) && (Present(body.customCode) ==> IsValidCustomCode(body.customCode.value)) ==>
      var code := if Present(body.customCode) then body.customCode.value else GeneratedCode(draws[0]);
      if CodeIndex(old(store.urls), code).Some? then
        reply == Failure(409, "Custom URL already exists. Please choose a different one.")
        && store.urls == old(store.urls) && store.nextId == old(store.nextId)
      else
        && reply == Created(ShortUrl(BaseUrl(production, host), code))
        && store.urls == old(store.urls) + [UrlRow(old(store.nextId), code, Normalize(body.longUrl.value), Owner(user), 0)]
        && store.nextId == old(store.nextId) + 1
    ensures reply.Created? ==> store.urls != [] && IsValidCustomCode(store.urls[|store.urls| - 1].shortCode)
    ensures CountsAgree(old(store.urls), old(store.clicks)) ==> CountsAgree(store.urls, store.clicks)
  {
    ghost var urls0, clicks0, id0 := store.urls, store.clicks, store.nextId;
    if body.urls.Some? {
      var results := ShortenEach(store, body.urls.value, Owner(user), BaseUrl(production, host), draws);
      BulkRunBound(urls0, body.urls.value, draws, BaseUrl(production, host));
      if CountsAgree(urls0, clicks0) {
        CreateKeepsCounts(urls0, clicks0, NewRows(results, Owner(user), id0), id0);
      }
      return BulkCreated(results);
    }
    if !Present(body.longUrl) {
      return Failure(400, "Long URL is required");
    }
    var longUrl := Normalize(body.longUrl.value);
    var code;
    if Present(body.customCode) {
      if !IsValidCustomCode(body.customCode.value) {
        return Failure(400, CodeFormat);
      }
      code := body.customCode.value;
    } else {
      code := GenerateShortCode(draws[0]);
    }
    var inserted := store.InsertUrl(code, longUrl, Owner(user));
    if !inserted {
      return Failure(409, "Custom URL already exists. Please choose a different one.");
    }
    if CountsAgree(urls0, clicks0) {
      CreateKeepsCounts(urls0, clicks0, [UrlRow(id0, code, longUrl, Owner(user), 0)], id0);
    }
    reply := Created(ShortUrl(BaseUrl(production, host), code));
  }

  /** `GET /api/my-urls`: the caller's links, newest first. */
  method MyUrls(store: Store, user: Option<AuthUser>) returns (reply: Reply)
    requires store.Valid()
    ensures user.None? ==> reply == Failure(401, AuthRequired)
    ensures user.Some? && user.value.id.None? ==> reply == UrlList([])
    ensures user.Some? && user.value.id.Some? ==>
      && reply.UrlList?
      && (forall k :: 0 <= k < |reply.urls| ==> reply.urls[k].userId == user.value.id && reply.urls[k] in store.urls)
      && (forall i :: 0 <= i < |store.urls| && store.urls[i].userId == user.value.id ==> store.urls[i] in reply.urls)
      && (forall k, l :: 0 <= k < l < |reply.urls| ==> reply.urls[k].id > reply.urls[l].id)
  {
    if user.None? {
      return Failure(401, AuthRequired);
    }
    if user.value.id.None? {
      return UrlList([]);
    }
    var mine := OwnedBy(store.urls, user.value.id.value);
    KeyedIffPairs(store.urls, store.nextId);
    assert IdsIncrease(store.urls);
    OwnedByIncreasing(store.urls, user.value.id.value);
    var newest := NewestFirst(mine);
    forall k | 0 <= k < |newest|
      ensures newest[k].userId == user.value.id && newest[k] in store.urls
    {
      assert newest[k] in mine;
    }
    reply := UrlList(newest);
  }

  /** A row holding `code` that belongs to `owner`. */
  predicate HasOwnedCode(rows: seq<UrlRow>, code: string, owner: Option<string>)
  {
    exists i :: 0 <= i < |rows| && rows[i].shortCode == code && owner.Some? && rows[i].userId == owner
  }

  /**
   * `GET /api/analytics/:shortCode`: the caller's link with that code, its clicks, and
   * their total and histograms by country, device and browser.
   */
  method LinkAnalytics(store: Store, code: string, user: Option<AuthUser>) returns (reply: Reply)
    requires store.Valid()
    ensures user.None? ==> reply == Failure(401, AuthRequired)
    ensures user.Some? ==> (reply.Report? <==> HasOwnedCode(store.urls, code, user.value.id))
    ensures user.Some? && !reply.Report? ==> reply == Failure(404, "URL not found")
    ensures reply.Report? ==>
      && reply.url in store.urls && reply.url.shortCode == code && reply.url.userId == user.value.id
      && reply.clicks == ClicksOf(store.clicks, reply.url.id)
      && reply.summary == Summarize(reply.clicks)
  {
    if user.None? {
      return Failure(401, AuthRequired);
    }
    var i := CodeIndex(store.urls, code);
    KeyedUnique(store.urls, store.nextId);
    if i.None? || user.value.id.None? || store.urls[i.value].userId != user.value.id {
      return Failure(404, "URL not found");
    }
    var row := store.urls[i.value];
    var clicks := ClicksOf(store.clicks, row.id);
    reply := Report(row, clicks, Summarize(clicks));
  }

  /**
   * `PUT /api/urls/:id`: change the short code of the caller's row `id`. An invalid code
   * is refused before any update, a code another row holds is a conflict, and no
   * matching row is a success that changes nothing.
   */
  method UpdateAlias(store: Store, id: nat, code: string, user: Option<AuthUser>) returns (reply: Reply)
    requires store.Valid()
    modifies store
    ensures store.Valid()
    ensures user.None? ==> reply == Failure(401, AuthRequired) && unchanged(store)
    ensures user.Some? && !IsValidCustomCode(code) ==> reply == Failure(400, "Invalid short code format") && unchanged(store)
    ensures user.Some? && IsValidCustomCode(code) ==>
      match OwnedIndex(old(store.urls), id, user.value.id)
      case None => reply == Done && unchanged(store)
      case Some(j) =>
        if exists k :: 0 <= k < |old(store.urls)| && k != j && old(store.urls)[k].shortCode == code then
          && reply == Failure(409, "Short code already exists")
          && store.urls == old(store.urls) && store.nextId == old(store.nextId)
          && store.clicks == old(store.clicks) && store.subscriptions == old(store.subscriptions)
        else
          && reply == Done
          && store.urls == old(store.urls)[j := old(store.urls)[j].(shortCode := code)]
          && store.clicks == old(store.clicks) && store.subscriptions == old(store.subscriptions)
          && store.nextId == old(store.nextId)
    ensures CountsAgree(old(store.urls), old(store.clicks)) ==> CountsAgree(store.urls, store.clicks)
  {
    if user.None? {
      return Failure(401, AuthRequired);
    }
    if !IsValidCustomCode(code) {
      return Failure(400, "Invalid short code format");
    }
    var j := OwnedIndex(store.urls, id, user.value.id);
    if j.None? {
      return Done;
    }
    var updated := store.UpdateCode(j.value, code);
    if !updated {
      return Failure(409, "Short code already exists");
    }
    reply := Done;
  }

  /** `DELETE /api/urls/:id`: remove the caller's row `id`; no matching row is a success that changes nothing. */
  method DeleteLink(store: Store, id: nat, user: Option<AuthUser>) returns (reply: Reply)
    requires store.Valid()
    modifies store
    ensures store.Valid()
    ensures user.None? ==> reply == Failure(401, AuthRequired) && unchanged(store)
    ensures user.Some? ==> reply == Done
    ensures user.Some? ==>
      match OwnedIndex(old(store.urls), id, user.value.id)
      case None => unchanged(store)
      case Some(j) =>
        && store.urls == old(store.urls)[..j] + old(store.urls)[j + 1..]
        && store.clicks == old(store.clicks) && store.subscriptions == old(store.subscriptions)
        && store.nextId == old(store.nextId)
    ensures CountsAgree(old(store.urls), old(store.clicks)) ==> CountsAgree(store.urls, store.clicks)
  {
    if user.None? {
      return Failure(401, AuthRequired);
    }
    var j := OwnedIndex(store.urls, id, user.value.id);
    if j.Some? {
      if CountsAgree(store.urls, store.clicks) {
        DeleteKeepsCounts(store.urls, store.clicks, j.value);
      }
      store.DeleteUrl(j.value);
    }
    reply := Done;
  }

  /** The redirect's two writes keep every `click_count` equal to the link's number of analytics rows. */
  lemma RedirectKeepsCounts(urls: seq<UrlRow>, bound: nat, clicks: seq<Click>, i: nat, info: ClickInfo)
    requires Keyed(urls, bound) && i < |urls| && CountsAgree(urls, clicks)
    ensures CountsAgree(urls[i := urls[i].(clickCount := urls[i].clickCount + 1)], clicks + [Click(urls[i].id, info)])
  {
    KeyedUnique(urls, bound);
    var c := Click(urls[i].id, info);
    forall j | 0 <= j < |urls|
      ensures ClicksOf(clicks + [c], urls[j].id) == ClicksOf(clicks, urls[j].id) + (if urls[i].id == urls[j].id then [info] else [])
    {
      ClicksOfAppend(clicks, c, urls[j].id);
    }
  }

  /**
   * New rows start with `click_count` 0 and take ids no analytics row refers to yet,
   * which agrees with their having no clicks.
   */
  lemma CreateKeepsCounts(urls: seq<UrlRow>, clicks: seq<Click>, rows: seq<UrlRow>, bound: nat)
    requires CountsAgree(urls, clicks) && ClicksBelow(clicks, bound)
    requires forall k :: 0 <= k < |rows| ==> rows[k].clickCount == 0 && rows[k].id >= bound
    ensures CountsAgree(urls + rows, clicks)
  {
    var all := urls + rows;
    forall j | 0 <= j < |all|
      ensures all[j].clickCount == |ClicksOf(clicks, all[j].id)|
    {
      if j >= |urls| {
        ClicksOfNone(clicks, all[j].id);
      }
    }
  }

  /** Removing a row leaves every other row's count as it was. */
  lemma DeleteKeepsCounts(urls: seq<UrlRow>, clicks: seq<Click>, i: nat)
    requires CountsAgree(urls, clicks) && i < |urls|
    ensures CountsAgree(urls[..i] + urls[i + 1..], clicks)
  {
    var rest := urls[..i] + urls[i + 1..];
    forall k | 0 <= k < |rest|
      ensures rest[k] == urls[if k < i then k else k + 1]
    {
    }
  }

  /**
   * `GET /:shortCode`: an unknown code is 404 and changes nothing; a known one gets an
   * analytics row and its `click_count` raised by one, and redirects to its long URL.
   * The click's fields come from the request and are a parameter here.
   */
  method Redirect(store: Store, code: string, info: ClickInfo) returns (reply: Reply)
    requires store.Valid()
    modifies store
    ensures store.Valid()
    ensures CodeIndex(old(store.urls), code).None? ==> reply == Failure(404, "Short URL not found") && unchanged(store)
    ensures CodeIndex(old(store.urls), code).Some? ==>
      var i := CodeIndex(old(store.urls), code).value;
      var row := old(store.urls)[i];
      && reply == Found(row.longUrl)
      && store.clicks == old(store.clicks) + [Click(row.id, info)]
      && store.urls == old(store.urls)[i := row.(clickCount := row.clickCount + 1)]
      && store.subscriptions == old(store.subscriptions) && store.nextId == old(store.nextId)
    ensures CountsAgree(old(store.urls), old(store.clicks)) ==> CountsAgree(store.urls, store.clicks)
  {
    var i := CodeIndex(store.urls, code);
    if i.None? {
      return Failure(404, "Short URL not found");
    }
    var row := store.urls[i.value];
    KeyedIffPairs(store.urls, store.nextId);
    if CountsAgree(store.urls, store.clicks) {
      RedirectKeepsCounts(store.urls, store.nextId, store.clicks, i.value, info);
    }
    store.AddClick(Click(row.id, info));
    store.IncrementClicks(i.value);
    reply := Found(row.longUrl);
  }

  /** `GET /api/stats/:shortCode`: the click count of the link holding the code. */
  method Stats(store: Store, code: string) returns (reply: Reply)
    ensures reply.ClickStats? <==> exists i :: 0 <= i < |store.urls| && store.urls[i].shortCode == code
    ensures !reply.ClickStats? ==> reply == Failure(404, "Short URL not found")
    ensures reply.ClickStats? ==>
      && reply.shortCode == code
      && exists i :: 0 <= i < |store.urls| && store.urls[i].shortCode == code && store.urls[i].clickCount == reply.clickCount
  {
    var i := CodeIndex(store.urls, code);
    if i.None? {
      return Failure(404, "Short URL not found");
    }
    reply := ClickStats(code, store.urls[i.value].clickCount);
  }
}

=== FILE: shorten_api.dfy ===
/**
 * The serverless `/api/shorten` handler: quota admission, the bulk and single
 * creation paths, and the usage charge that follows a successful create.
 */
module ShortenApi {
  import opened Common
  import opened Text
  import opened Codes
  import opened Urls
  import opened Tables
  import opened Quota
  import opened Shortening

  /** The public base of every short URL this handler returns. */
  const PublicBase: string := "https://u2l.in"

  /** The replies of the handler. */
  datatype Reply =
    | Empty(status: int)                  // OPTIONS preflight
    | Failure(status: int, error: string) // 400, 405, 409
    | LimitExceeded(denial: Denial)       // 429
    | Single(shortUrl: string)            // 200 { shortUrl }
    | Bulk(results: seq<BulkResult>)      // 200 { results }

  /** The user's subscription table after `checkUsageLimit` ran, or untouched for an anonymous caller. */
  function AfterCheck(subs: map<string, Subscription>, userId: Option<string>): (r: map<string, Subscription>)
    ensures userId.None? ==> r == subs
    ensures userId.Some? ==>
      && r.Keys == subs.Keys + {userId.value}
      && r[userId.value] == Effective(Lookup(subs, userId.value))
      && forall u :: u in subs && u != userId.value ==> r[u] == subs[u]
  {
    if userId.Some? then WithDefault(subs, userId.value) else subs
  }

  /** A signed-in caller whose quota does not admit `n` more links. */
  predicate Refused(subs: map<string, Subscription>, userId: Option<string>, n: int)
  {
    userId.Some? && !CheckUsageLimit(userId, Lookup(subs, userId.value), n).allowed
  }

  /**
   * The 429 body for such a caller: what was left before the request, never below zero,
   * the plan of an existing row, and an upgrade offer exactly for a row on the free plan.
   */
  function RefusalOf(subs: map<string, Subscription>, userId: Option<string>, n: int): (d: Denial)
    requires userId.Some?
    ensures var s := Effective(Lookup(subs, userId.value));
      && d.remaining == (if s.monthlyLimit - s.currentUsage < 0 then 0 else s.monthlyLimit - s.currentUsage)
      && d.plan == (if userId.value in subs then Some(subs[userId.value].planType) else None)
      && (d.upgradeRequired <==> userId.value in subs && subs[userId.value].planType == "free")
  {
    DenialFor(CheckUsageLimit(userId, Lookup(subs, userId.value), n), n)
  }

  /**
   * `checkUsageLimit(supabase, uid, urlCount)` for a signed-in user: read the row, insert
   * the default row when there is none, and decide.
   */
  method CheckQuota(store: Store, uid: string, urlCount: int) returns (check: UsageCheck)
    requires store.Valid()
    modifies store
    ensures store.Valid()
    ensures check == CheckUsageLimit(Some(uid), Lookup(old(store.subscriptions), uid), urlCount)
    ensures store.subscriptions == WithDefault(old(store.subscriptions), uid)
    ensures store.urls == old(store.urls) && store.clicks == old(store.clicks) && store.nextId == old(store.nextId)
  {
    var row := Lookup(store.subscriptions, uid);
    if row.None? {
      store.PutSubscription(uid, DefaultSubscription());
    }
    check := CheckUsageLimit(Some(uid), row, urlCount);
  }

  /**
   * The usage update after `created` links were made for `uid`: a missing row is
   * inserted as free/25 with usage `created`, an existing one grows by `created`.
   */
  method RecordUsage(store: Store, uid: string, created: int)
    requires store.Valid()
    modifies store
    ensures store.Valid()
    ensures store.subscriptions == Charge(old(store.subscriptions), uid, created)
    ensures store.urls == old(store.urls) && store.clicks == old(store.clicks) && store.nextId == old(store.nextId)
  {
    var row := Lookup(store.subscriptions, uid);
    if row.None? {
      store.PutSubscription(uid, Subscription("free", FreeLimit, created));
    } else {
      store.PutSubscription(uid, row.value.(currentUsage := row.value.currentUsage + created));
    }
  }

  /**
   * The bulk path from the state `urls0, id0, subs0` to `urls1, id1, subs1`: a caller the
   * quota refuses for the non-blank entries gets the 429 and nothing is created; otherwise
   * the reply lists what the bulk loop makes over the non-blank entries, those rows are
   * added, and the number made is charged when it is not zero.
   */
  predicate BulkOutcome(urls0: seq<UrlRow>, id0: nat, subs0: map<string, Subscription>,
                        entries: seq<string>, userId: Option<string>, draws: seq<seq<int>>,
                        reply: Reply, urls1: seq<UrlRow>, id1: nat, subs1: map<string, Subscription>)
    requires DrawsFor(entries, draws)
  {
    var valid := NonBlank(entries);
    var checked := AfterCheck(subs0, userId);
    if Refused(subs0, userId, |valid|) then
      && reply == LimitExceeded(RefusalOf(subs0, userId, |valid|))
      && urls1 == urls0 && id1 == id0 && subs1 == checked
    else
      var results := BulkRun(urls0, valid, draws, PublicBase);
      && reply == Bulk(results)
      && urls1 == urls0 + NewRows(results, userId, id0)
      && id1 == id0 + |results|
      && subs1 == (if userId.Some? && |results| > 0 then Charge(checked, userId.value, |results|) else checked)
  }

  /**
   * The single path from one state to the next: a missing long URL is a 400 and changes
   * nothing; a refused caller gets the 429; otherwise the code is the custom one as given
   * or the drawn one, a taken code is a 409, and a free one is inserted and charged.
   */
  predicate SingleOutcome(urls0: seq<UrlRow>, id0: nat, subs0: map<string, Subscription>,
                          longUrl: Option<string>, customCode: Option<string>, userId: Option<string>, draw: seq<int>,
                          reply: Reply, urls1: seq<UrlRow>, id1: nat, subs1: map<string, Subscription>)
    requires IsDraw(draw)
  {
    if !Present(longUrl) then
      reply == Failure(400, "Long URL is required") && urls1 == urls0 && id1 == id0 && subs1 == subs0
    else
      var checked := AfterCheck(subs0, userId);
      if Refused(subs0, userId, 1) then
        && reply == LimitExceeded(RefusalOf(subs0, userId, 1))
        && urls1 == urls0 && id1 == id0 && subs1 == checked
      else
        var code := if Present(customCode) then customCode.value else GeneratedCode(draw);
        if CodeIndex(urls0, code).Some? then
          && reply == Failure(409, "Custom URL already exists")
          && urls1 == urls0 && id1 == id0 && subs1 == checked
        else
          && reply == Single(ShortUrl(PublicBase, code))
          && urls1 == urls0 + [UrlRow(id0, code, Normalize(Trim(longUrl.value)), userId, 0)]
          && id1 == id0 + 1
          && subs1 == (if userId.Some? then Charge(checked, userId.value, 1) else checked)
  }

  /**
   * A signed-in caller admitted for a bulk request is charged exactly the links made,
   * and when no drawn code collides that is one per non-blank entry.
   */
  lemma BulkChargesWhatIsMade(urls0: seq<UrlRow>, id0: nat, subs0: map<string, Subscription>,
                              entries: seq<string>, uid: string, draws: seq<seq<int>>,
                              reply: Reply, urls1: seq<UrlRow>, id1: nat, subs1: map<string, Subscription>)
    requires DrawsFor(entries, draws)
    requires BulkOutcome(urls0, id0, subs0, entries, Some(uid), draws, reply, urls1, id1, subs1)
    requires reply.Bulk?
    ensures uid in subs1
    ensures subs1[uid].currentUsage == Effective(Lookup(subs0, uid)).currentUsage + |reply.results|
    ensures |reply.results| <= |NonBlank(entries)|
    ensures DrawsFor(NonBlank(entries), draws) && FreshDraws(urls0, NonBlank(entries), draws) ==> |reply.results| == |NonBlank(entries)|
  {
    var valid := NonBlank(entries);
    var checked := AfterCheck(subs0, Some(uid));
    var results := BulkRun(urls0, valid, draws, PublicBase);
    assert !Refused(subs0, Some(uid), |valid|) && reply.results == results;
    NonBlankIdempotent(entries);
    BulkRunBound(urls0, valid, draws, PublicBase);
    var before := Effective(Lookup(subs0, uid));
    assert Lookup(checked, uid) == Some(before);
    if |results| > 0 {
      assert subs1 == Charge(checked, uid, |results|);
    } else {
      assert subs1 == checked;
    }
    if FreshDraws(urls0, valid, draws) {
      BulkRunComplete(urls0, valid, draws, PublicBase);
    }
  }

  /**
   * The bulk path: the non-blank entries are checked against the quota as one request,
   * shortened one by one, and the number created is charged.
   */
  method ShortenBulk(store: Store, entries: seq<string>, userId: Option<string>, draws: seq<seq<int>>) returns (reply: Reply)
    requires store.Valid() && DrawsFor(entries, draws)
    modifies store
    ensures store.Valid()
    ensures BulkOutcome(old(store.urls), old(store.nextId), old(store.subscriptions), entries, userId, draws,
                        reply, store.urls, store.nextId, store.subscriptions)
    ensures store.clicks == old(store.clicks)
  {
    var valid := NonBlank(entries);
    if userId.Some? {
      var check := CheckQuota(store, userId.value, |valid|);
      if !check.allowed {
        return LimitExceeded(DenialFor(check, |valid|));
      }
    }
    var results := ShortenEach(store, valid, userId, PublicBase, draws);
    if userId.Some? && |results| > 0 {
      RecordUsage(store, userId.value, |results|);
    }
    reply := Bulk(results);
  }

  /**
   * The single path: a missing long URL is refused before anything else, then the quota
   * is checked for one link; the custom code is used as given when present (it is not
   * validated here), a generated one otherwise; a taken code is a conflict and is not charged.
   */
  method ShortenSingle(store: Store, longUrl: Option<string>, customCode: Option<string>, userId: Option<string>, draw: seq<int>)
    returns (reply: Reply)
    requires store.Valid() && IsDraw(draw)
    modifies store
    ensures store.Valid()
    ensures SingleOutcome(old(store.urls), old(store.nextId), old(store.subscriptions), longUrl, customCode, userId, draw,
                          reply, store.urls, store.nextId, store.subscriptions)
    ensures !Present(longUrl) ==> unchanged(store)
    ensures store.clicks == old(store.clicks)
  {
    if !Present(longUrl) {
      return Failure(400, "Long URL is required");
    }
    if userId.Some? {
      var check := CheckQuota(store, userId.value, 1);
      if !check.allowed {
        return LimitExceeded(DenialFor(check, 1));
      }
    }
    var processed := Normalize(Trim(longUrl.value));
    var code;
    if Present(customCode) {
      code := customCode.value;
    } else {
      code := GenerateShortCode(draw);
    }
    var inserted := store.InsertUrl(code, processed, userId);
    if !inserted {
      return Failure(409, "Custom URL already exists");
    }
    if userId.Some? {
      RecordUsage(store, userId.value, 1);
    }
    reply := Single(ShortUrl(PublicBase, code));
  }

  /**
   * The handler: OPTIONS is answered empty, any method but POST is refused, a body with a
   * `urls` array takes the bulk path and any other the single path. The caller is the
   * `x-user-id` header when present and non-empty.
   */
  method Handle(store: Store, verb: HttpMethod, body: ShortenRequest, userHeader: Option<string>, draws: seq<seq<int>>)
    returns (reply: Reply)
    requires store.Valid() && EnoughDraws(body, draws)
    modifies store
    ensures store.Valid()
    ensures verb == Options ==> reply == Empty(200) && unchanged(store)
    ensures verb != Options && verb != Post ==> reply == Failure(405, "Method not allowed") && unchanged(store)
    ensures verb == Post && body.urls.None? && !Present(body.longUrl) ==> reply == Failure(400, "Long URL is required") && unchanged(store)
    ensures verb == Post && body.urls.Some? ==>
      && (reply.Bulk? || reply.LimitExceeded?)
      && BulkOutcome(old(store.urls), old(store.nextId), old(store.subscriptions), body.urls.value, UserIdOf(userHeader), draws,
                     reply, store.urls, store.nextId, store.subscriptions)
    ensures verb == Post && body.urls.None? ==>
      SingleOutcome(old(store.urls), old(store.nextId), old(store.subscriptions), body.longUrl, body.customCode, UserIdOf(userHeader), draws[0],
                    reply, store.urls, store.nextId, store.subscriptions)
    ensures reply.Single? ==> verb == Post && body.urls.None? && Present(body.longUrl)
    ensures reply.Bulk? ==> verb == Post && body.urls.Some? && |reply.results| <= |NonBlank(body.urls.value)|
    ensures reply.Failure? && reply.status == 409 ==> store.urls == old(store.urls) && store.nextId == old(store.nextId)
    ensures reply.LimitExceeded? ==> store.urls == old(store.urls) && store.nextId == old(store.nextId)
    ensures store.clicks == old(store.clicks)
  {
    if verb == Options {
      return Empty(200);
    }
    if verb != Post {
      return Failure(405, "Method not allowed");
    }
    var userId := UserIdOf(userHeader);
    if body.urls.Some? {
      reply := ShortenBulk(store, body.urls.value, userId, draws);
      NonBlankIdempotent(body.urls.value);
      BulkRunBound(old(store.urls), NonBlank(body.urls.value), draws, PublicBase);
    } else {
      reply := ShortenSingle(store, body.longUrl, body.customCode, userId, draws[0]);
    }
  }
}

=== FILE: shortening.dfy ===
/**
 * What the two `/api/shorten` implementations share: the request body, the bulk
 * reply entries, the preparation of a bulk entry, and the loop that creates one
 * link per non-blank entry.
 */
module Shortening {
  import opened Common
  import opened Text
  import opened Codes
  import opened Urls
  import opened Tables

  /** The JSON body `{ longUrl, customCode, urls }`; a field the client left out is absent. */
  datatype ShortenRequest = ShortenRequest(longUrl: Option<string>, customCode: Option<string>, urls: Option<seq<string>>)

  /** Random draws enough for the request: one per bulk entry, or one for a single link. */
  predicate EnoughDraws(body: ShortenRequest, draws: seq<seq<int>>)
  {
    && |draws| >= (if body.urls.Some? then |body.urls.value| else 1)
    && forall i :: 0 <= i < |draws| ==> IsDraw(draws[i])
  }

  /** One entry of a bulk reply: `{ longUrl, shortUrl, shortCode }`. */
  datatype BulkResult = BulkResult(longUrl: string, shortUrl: string, shortCode: string)

  /** `${baseUrl}/${shortCode}`. */
  function ShortUrl(base: string, code: string): string
  {
    base + "/" + code
  }

  /** The long URL stored for a bulk entry: trimmed, then given a scheme. */
  function Prepare(entry: string): (r: string)
    ensures HasScheme(r)
    ensures |Trim(entry)| <= |r| && r[|r| - |Trim(entry)|..] == Trim(entry)
    ensures r == Trim(entry) <==> HasScheme(Trim(entry))
  {
    Normalize(Trim(entry))
  }

  /** `urls.filter(url => url.trim())`. */
  function NonBlank(entries: seq<string>): (r: seq<string>)
    ensures |r| <= |entries|
    ensures forall k :: 0 <= k < |r| ==> !IsBlank(r[k])
  {
    if entries == [] then []
    else
      var last := entries[|entries| - 1];
      NonBlank(entries[..|entries| - 1]) + (if IsBlank(last) then [] else [last])
  }

  /** The filter keeps exactly the non-blank entries. */
  lemma {:induction false} NonBlankMembers(entries: seq<string>)
    ensures forall x :: x in NonBlank(entries) <==> x in entries && !IsBlank(x)
  {
    if entries != [] {
      var init := entries[..|entries| - 1];
      NonBlankMembers(init);
      assert entries == init + [entries[|entries| - 1]];
    }
  }

  /** Filtering a concatenation filters each part. */
  lemma {:induction false} NonBlankAppend(a: seq<string>, b: seq<string>)
    ensures NonBlank(a + b) == NonBlank(a) + NonBlank(b)
    decreases |b|
  {
    if b != [] {
      var init := b[..|b| - 1];
      NonBlankAppend(a, init);
      assert (a + b)[..|a + b| - 1] == a + init;
    } else {
      assert a + b == a;
    }
  }

  /** Filtering blank entries twice is filtering once. */
  lemma {:induction false} NonBlankIdempotent(entries: seq<string>)
    ensures NonBlank(NonBlank(entries)) == NonBlank(entries)
  {
    if entries != [] {
      var init := entries[..|entries| - 1];
      var last := entries[|entries| - 1];
      NonBlankIdempotent(init);
      var nb := NonBlank(init);
      if IsBlank(last) {
        assert NonBlank(entries) == nb;
      } else {
        assert NonBlank(entries) == nb + [last];
        assert (nb + [last])[..|nb|] == nb;
        assert NonBlank(nb + [last]) == NonBlank(nb) + [last];
      }
    }
  }

  /** The `urls` rows the results stand for, with consecutive ids from `firstId`. */
  function NewRows(results: seq<BulkResult>, userId: Option<string>, firstId: nat): (r: seq<UrlRow>)
    ensures |r| == |results|
    ensures forall k :: 0 <= k < |r| ==> r[k] == UrlRow(firstId + k, results[k].shortCode, results[k].longUrl, userId, 0)
  {
    seq(|results|, k requires 0 <= k < |results| => UrlRow(firstId + k, results[k].shortCode, results[k].longUrl, userId, 0))
  }

  /** The result an entry adds to the list: none, or the one it produced. */
  function Pushed(res: Option<BulkResult>): (r: seq<BulkResult>)
    ensures |r| <= 1 && (r == [] <==> res.None?)
    ensures res.Some? ==> r == [res.value]
  {
    if res.Some? then [res.value] else []
  }

  /** The row a pushed result stands for, if any. */
  function RowOf(res: Option<BulkResult>, userId: Option<string>, id: nat): (r: seq<UrlRow>)
    ensures res.None? ==> r == []
    ensures res.Some? ==> r == [UrlRow(id, res.value.shortCode, res.value.longUrl, userId, 0)]
  {
    if res.Some? then [UrlRow(id, res.value.shortCode, res.value.longUrl, userId, 0)] else []
  }

  /** The rows after one more step are the rows of the results so far plus the pushed one. */
  lemma NewRowsStep(before: seq<UrlRow>, after: seq<UrlRow>, urls0: seq<UrlRow>, results: seq<BulkResult>, res: Option<BulkResult>, userId: Option<string>, id0: nat, id: nat)
    requires before == urls0 + NewRows(results, userId, id0)
    requires id == id0 + |results| && after == before + RowOf(res, userId, id)
    ensures after == urls0 + NewRows(results + Pushed(res), userId, id0)
  {
    if res.Some? {
      assert NewRows(results + [res.value], userId, id0)
          == NewRows(results, userId, id0) + [UrlRow(id0 + |results|, res.value.shortCode, res.value.longUrl, userId, 0)];
    } else {
      assert results + Pushed(res) == results;
    }
  }

  /** A bulk result whose short URL is built on `base` from a generated code. */
  predicate IsGeneratedResult(r: BulkResult, base: string)
  {
    r.shortUrl == ShortUrl(base, r.shortCode) && |r.shortCode| == CodeLength && IsValidCustomCode(r.shortCode)
  }

  /** Entry `i` of a bulk request draws its code from `draws[i]`. */
  predicate DrawsFor(entries: seq<string>, draws: seq<seq<int>>)
  {
    |draws| >= |entries| && forall i :: 0 <= i < |draws| ==> IsDraw(draws[i])
  }

  /** The short codes of the results, in order. */
  function ResultCodes(results: seq<BulkResult>): (r: seq<string>)
    ensures |r| == |results| && forall k :: 0 <= k < |r| ==> r[k] == results[k].shortCode
  {
    seq(|results|, k requires 0 <= k < |results| => results[k].shortCode)
  }

  /** A result made on a generated code that was free in `urls`, for a URL with a scheme. */
  predicate Issued(urls: seq<UrlRow>, base: string, x: BulkResult)
  {
    IsGeneratedResult(x, base) && HasScheme(x.longUrl) && CodeIndex(urls, x.shortCode).None?
  }

  /** Results that were all issued, on pairwise distinct codes. */
  predicate AllIssued(urls: seq<UrlRow>, base: string, r: seq<BulkResult>)
  {
    && (forall k :: 0 <= k < |r| ==> Issued(urls, base, r[k]))
    && (forall k, l :: 0 <= k < l < |r| ==> r[k].shortCode != r[l].shortCode)
  }

  /** One more issued result on a code no earlier result holds keeps the list issued. */
  lemma AllIssuedAppend(urls: seq<UrlRow>, base: string, p: seq<BulkResult>, x: BulkResult)
    requires AllIssued(urls, base, p) && Issued(urls, base, x) && x.shortCode !in ResultCodes(p)
    ensures AllIssued(urls, base, p + [x])
  {
    var r := p + [x];
    forall k | 0 <= k < |p| ensures r[k] == p[k] && p[k].shortCode != x.shortCode {
      assert ResultCodes(p)[k] == p[k].shortCode;
    }
  }

  /**
   * What the bulk loop returns, entry by entry: a blank entry adds nothing; any other
   * adds its prepared URL on the code drawn for it, unless that code is already in the
   * table or was taken by an earlier entry of the same request, when the insert fails.
   * Every result is issued on a code that was free and that no other result holds.
   */
  function BulkRun(urls: seq<UrlRow>, entries: seq<string>, draws: seq<seq<int>>, base: string): (r: seq<BulkResult>)
    requires DrawsFor(entries, draws)
    ensures AllIssued(urls, base, r)
  {
    if entries == [] then []
    else
      var n := |entries| - 1;
      var p := BulkRun(urls, entries[..n], draws, base);
      var code := GeneratedCode(draws[n]);
      if IsBlank(entries[n]) || CodeIndex(urls, code).Some? || code in ResultCodes(p) then p
      else
        var x := BulkResult(Prepare(entries[n]), ShortUrl(base, code), code);
        GeneratedCodeValid(draws[n]);
        AllIssuedAppend(urls, base, p, x);
        p + [x]
  }

  /** A bulk request never returns more results than it has non-blank entries. */
  lemma {:induction false} BulkRunBound(urls: seq<UrlRow>, entries: seq<string>, draws: seq<seq<int>>, base: string)
    requires DrawsFor(entries, draws)
    ensures |BulkRun(urls, entries, draws, base)| <= |NonBlank(entries)|
  {
    if entries != [] {
      BulkRunBound(urls, entries[..|entries| - 1], draws, base);
    }
  }

  /** The results of a bulk request none of whose drawn codes collides: one per non-blank entry, in order. */
  function Planned(entries: seq<string>, draws: seq<seq<int>>, base: string): (r: seq<BulkResult>)
    requires DrawsFor(entries, draws)
    ensures |r| == |NonBlank(entries)|
    ensures forall k :: 0 <= k < |r| ==> r[k].longUrl == Prepare(NonBlank(entries)[k]) && IsGeneratedResult(r[k], base)
  {
    if entries == [] then []
    else
      var n := |entries| - 1;
      var p := Planned(entries[..n], draws, base);
      var code := GeneratedCode(draws[n]);
      GeneratedCodeValid(draws[n]);
      if IsBlank(entries[n]) then p
      else p + [BulkResult(Prepare(entries[n]), ShortUrl(base, code), code)]
  }

  /** The codes drawn for the non-blank entries are free in `urls` and pairwise distinct. */
  predicate FreshDraws(urls: seq<UrlRow>, entries: seq<string>, draws: seq<seq<int>>)
    requires DrawsFor(entries, draws)
  {
    && (forall i :: 0 <= i < |entries| && !IsBlank(entries[i]) ==> CodeIndex(urls, GeneratedCode(draws[i])).None?)
    && (forall i, j :: 0 <= i < j < |entries| && !IsBlank(entries[i]) && !IsBlank(entries[j]) ==>
          GeneratedCode(draws[i]) != GeneratedCode(draws[j]))
  }

  /** A code drawn for none of the non-blank entries is the code of no planned result. */
  lemma {:induction false} PlannedCodes(entries: seq<string>, draws: seq<seq<int>>, base: string, c: string)
    requires DrawsFor(entries, draws)
    requires forall i :: 0 <= i < |entries| && !IsBlank(entries[i]) ==> GeneratedCode(draws[i]) != c
    ensures forall k :: 0 <= k < |Planned(entries, draws, base)| ==> Planned(entries, draws, base)[k].shortCode != c
  {
    if entries != [] {
      var n := |entries| - 1;
      var init := entries[..n];
      forall i | 0 <= i < |init| ensures init[i] == entries[i] { }
      PlannedCodes(init, draws, base, c);
      var p := Planned(init, draws, base);
      var r := Planned(entries, draws, base);
      assert r == p || r == p + [BulkResult(Prepare(entries[n]), ShortUrl(base, GeneratedCode(draws[n])), GeneratedCode(draws[n]))];
      assert GeneratedCode(draws[n]) != c || IsBlank(entries[n]);
    }
  }

  /** When no drawn code collides, every non-blank entry yields its link. */
  lemma {:induction false} BulkRunComplete(urls: seq<UrlRow>, entries: seq<string>, draws: seq<seq<int>>, base: string)
    requires DrawsFor(entries, draws) && FreshDraws(urls, entries, draws)
    ensures BulkRun(urls, entries, draws, base) == Planned(entries, draws, base)
    ensures |BulkRun(urls, entries, draws, base)| == |NonBlank(entries)|
  {
    if entries != [] {
      var n := |entries| - 1;
      var init := entries[..n];
      forall i | 0 <= i < |init| ensures init[i] == entries[i] { }
      BulkRunComplete(urls, init, draws, base);
      if !IsBlank(entries[n]) {
        PlannedCodes(init, draws, base, GeneratedCode(draws[n]));
        assert GeneratedCode(draws[n]) !in ResultCodes(Planned(init, draws, base));
      }
    }
  }

  /** The result list after entry `i`: entry `i` adds its link exactly when it is non-blank and its code is still free. */
  lemma BulkRunStep(urls: seq<UrlRow>, entries: seq<string>, draws: seq<seq<int>>, base: string, i: nat)
    requires DrawsFor(entries, draws) && i < |entries|
    ensures var p := BulkRun(urls, entries[..i], draws, base);
      var code := GeneratedCode(draws[i]);
      BulkRun(urls, entries[..i + 1], draws, base)
        == if IsBlank(entries[i]) || CodeIndex(urls, code).Some? || code in ResultCodes(p) then p
           else p + [BulkResult(Prepare(entries[i]), ShortUrl(base, code), code)]
  {
    assert entries[..i + 1][..i] == entries[..i];
  }

  /** A code is free after the results were inserted exactly when it was free before and no result took it. */
  lemma CodeFreeAfter(urls0: seq<UrlRow>, results: seq<BulkResult>, userId: Option<string>, id0: nat, code: string)
    ensures CodeIndex(urls0 + NewRows(results, userId, id0), code).None?
        <==> CodeIndex(urls0, code).None? && code !in ResultCodes(results)
  {
    var all := urls0 + NewRows(results, userId, id0);
    if CodeIndex(all, code).None? {
      forall i | 0 <= i < |urls0| ensures urls0[i].shortCode != code {
        assert all[i] == urls0[i];
      }
      forall k | 0 <= k < |results| ensures results[k].shortCode != code {
        assert all[|urls0| + k].shortCode == results[k].shortCode;
      }
    } else {
      var j := CodeIndex(all, code).value;
      if j >= |urls0| {
        assert ResultCodes(results)[j - |urls0|] == code;
      }
    }
  }

  /**
   * The insert of one bulk row and the result it yields: a result comes back exactly
   * when `code` was free, and the row is appended only then.
   */
  method InsertResult(store: Store, longUrl: string, code: string, userId: Option<string>, base: string)
    returns (res: Option<BulkResult>)
    requires store.Valid()
    modifies store
    ensures store.Valid()
    ensures res.Some? <==> CodeIndex(old(store.urls), code).None?
    ensures res.Some? ==> res.value == BulkResult(longUrl, ShortUrl(base, code), code)
    ensures store.urls == old(store.urls) + RowOf(res, userId, old(store.nextId))
    ensures store.nextId == old(store.nextId) + (if res.Some? then 1 else 0)
    ensures store.clicks == old(store.clicks) && store.subscriptions == old(store.subscriptions)
  {
    var inserted := store.InsertUrl(code, longUrl, userId);
    if inserted {
      res := Some(BulkResult(longUrl, ShortUrl(base, code), code));
    } else {
      res := None;
    }
  }

  /**
   * One non-blank bulk entry: prepare it, draw a code and insert the row; a result
   * comes back exactly when the drawn code was free.
   */
  method ShortenOne(store: Store, entry: string, userId: Option<string>, base: string, draw: seq<int>)
    returns (res: Option<BulkResult>)
    requires store.Valid() && IsDraw(draw)
    modifies store
    ensures store.Valid()
    ensures res.Some? <==> CodeIndex(old(store.urls), GeneratedCode(draw)).None?
    ensures res.Some? ==> res.value == BulkResult(Prepare(entry), ShortUrl(base, GeneratedCode(draw)), GeneratedCode(draw))
    ensures store.urls == old(store.urls) + RowOf(res, userId, old(store.nextId))
    ensures store.nextId == old(store.nextId) + (if res.Some? then 1 else 0)
    ensures store.clicks == old(store.clicks) && store.subscriptions == old(store.subscriptions)
  {
    var processed := Prepare(entry);
    var code := GenerateShortCode(draw);
    res := InsertResult(store, processed, code, userId, base);
  }

  /**
   * One turn of the bulk loop, on entry `i`: a blank entry is skipped, any other is
   * shortened and its result pushed when the insert succeeded.
   */
  method ShortenStep(store: Store, entries: seq<string>, i: nat, userId: Option<string>, base: string, draws: seq<seq<int>>,
                     results: seq<BulkResult>, ghost urls0: seq<UrlRow>, ghost id0: nat)
    returns (results': seq<BulkResult>)
    requires i < |entries| && DrawsFor(entries, draws)
    requires store.Valid() && store.urls == urls0 + NewRows(results, userId, id0) && store.nextId == id0 + |results|
    requires results == BulkRun(urls0, entries[..i], draws, base)
    modifies store
    ensures store.Valid() && store.urls == urls0 + NewRows(results', userId, id0) && store.nextId == id0 + |results'|
    ensures store.clicks == old(store.clicks) && store.subscriptions == old(store.subscriptions)
    ensures results' == BulkRun(urls0, entries[..i + 1], draws, base)
  {
    ghost var before, n0 := store.urls, store.nextId;
    BulkRunStep(urls0, entries, draws, base, i);
    var res := None;
    if !IsBlank(entries[i]) {
      CodeFreeAfter(urls0, results, userId, id0, GeneratedCode(draws[i]));
      res := ShortenOne(store, entries[i], userId, base, draws[i]);
    } else {
      assert store.urls == before + RowOf(res, userId, n0);
    }
    NewRowsStep(before, store.urls, urls0, results, res, userId, id0, n0);
    results' := results + Pushed(res);
  }

  /**
   * The bulk loop: for each non-blank entry, prepare it, draw a code, insert the row and
   * push a result when the insert succeeded. Entry `i` draws its code from `draws[i]`.
   */
  method ShortenEach(store: Store, entries: seq<string>, userId: Option<string>, base: string, draws: seq<seq<int>>)
    returns (results: seq<BulkResult>)
    requires store.Valid() && DrawsFor(entries, draws)
    modifies store
    ensures store.Valid()
    ensures results == BulkRun(old(store.urls), entries, draws, base)
    ensures store.urls == old(store.urls) + NewRows(results, userId, old(store.nextId))
    ensures store.nextId == old(store.nextId) + |results|
    ensures store.clicks == old(store.clicks) && store.subscriptions == old(store.subscriptions)
  {
    ghost var urls0, id0 := store.urls, store.nextId;
    results := [];
    var i := 0;
    while i < |entries|
      invariant 0 <= i <= |entries|
      invariant store.Valid() && store.urls == urls0 + NewRows(results, userId, id0) && store.nextId == id0 + |results|
      invariant store.clicks == old(store.clicks) && store.subscriptions == old(store.subscriptions)
      invariant results == BulkRun(urls0, entries[..i], draws, base)
    {
      results := ShortenStep(store, entries, i, userId, base, draws, results, urls0, id0);
      i := i + 1;
    }
    assert entries[..i] == entries;
  }
}

=== FILE: subscription_api.dfy ===
/**
 * The `/api/subscription` handler: GET reads the caller's subscription, creating
 * the default one when there is none, and POST upgrades it to premium.
 */
module SubscriptionApi {
  import opened Common
  import opened Tables
  import opened Quota

  /** The replies of the handler. */
  datatype Reply =
    | Empty(status: int)                         // OPTIONS preflight
    | Failure(status: int, error: string)        // 401, 500
    | Plan(subscription: Subscription)           // GET
    | Upgraded(updated: Option<Subscription>)    // POST { success, subscription }
    | NoResponse                                 // any other method: nothing is sent

  /**
   * The response record: an empty plan reads as 'free' and a zero limit as 25
   * (`Number(limit) || 25`); usage is passed through, as `Number(usage) || 0` only
   * changes a value that is not a number.
   */
  function Normalized(s: Subscription): (r: Subscription)
    ensures r.planType == (if s.planType == "" then "free" else s.planType)
    ensures r.monthlyLimit == (if s.monthlyLimit == 0 then FreeLimit else s.monthlyLimit)
    ensures r.currentUsage == s.currentUsage
  {
    Subscription(if s.planType == "" then "free" else s.planType, if s.monthlyLimit == 0 then 25 else s.monthlyLimit, s.currentUsage)
  }

  /** A normalised record has a plan and a non-zero limit, normalising again changes nothing, and the default row is already normal. */
  lemma NormalizedShape(s: Subscription)
    ensures Normalized(s).planType != "" && Normalized(s).monthlyLimit != 0
    ensures Normalized(Normalized(s)) == Normalized(s)
    ensures Normalized(DefaultSubscription()) == DefaultSubscription()
  {
  }

  /**
   * The handler. The caller is the `x-user-id` header; without it the reply is 401.
   * A read error other than "no row" (`fetchFails`) is 500. A missing row is inserted
   * with the defaults; when that insert fails (`insertFails`) the defaults are returned
   * anyway. POST upgrades an existing row and reports no row when there is none.
   */
  method Handle(store: Store, verb: HttpMethod, userHeader: Option<string>, fetchFails: bool, insertFails: bool)
    returns (reply: Reply)
    requires store.Valid()
    modifies store
    ensures store.Valid()
    ensures store.urls == old(store.urls) && store.clicks == old(store.clicks) && store.nextId == old(store.nextId)
    ensures verb == Options ==> reply == Empty(200) && unchanged(store)
    ensures verb != Options && !Present(userHeader) ==> reply == Failure(401, "Authentication required") && unchanged(store)
    ensures verb != Options && Present(userHeader) ==>
      var uid := userHeader.value;
      var row := Lookup(old(store.subscriptions), uid);
      if verb == Get then
        if fetchFails then
          reply == Failure(500, "Database error") && unchanged(store)
        else if row.None? then
          && reply == Plan(DefaultSubscription())
          && store.subscriptions == (if insertFails then old(store.subscriptions) else old(store.subscriptions)[uid := DefaultSubscription()])
        else
          reply == Plan(Normalized(row.value)) && unchanged(store)
      else if verb == Post then
        if row.None? then
          reply == Upgraded(None) && unchanged(store)
        else
          && reply == Upgraded(Some(Upgrade(row.value)))
          && store.subscriptions == old(store.subscriptions)[uid := Upgrade(row.value)]
      else
        reply == NoResponse && unchanged(store)
  {
    if verb == Options {
      return Empty(200);
    }
    if !Present(userHeader) {
      return Failure(401, "Authentication required");
    }
    var uid := userHeader.value;
    var row := Lookup(store.subscriptions, uid);
    if verb == Get {
      if fetchFails {
        return Failure(500, "Database error");
      }
      if row.None? {
        if insertFails {
          return Plan(DefaultSubscription());
        }
        store.PutSubscription(uid, DefaultSubscription());
        NormalizedShape(DefaultSubscription());
        return Plan(Normalized(DefaultSubscription()));
      }
      reply := Plan(Normalized(row.value));
    } else if verb == Post {
      if row.None? {
        return Upgraded(None);
      }
      store.PutSubscription(uid, Upgrade(row.value));
      reply := Upgraded(Some(Upgrade(row.value)));
    } else {
      reply := NoResponse;
    }
  }
}

=== FILE: subscription_view.dfy ===
/** The subscription panel: the plan title, the usage bar and text, and the upgrade offer. */
module SubscriptionView {
  import opened Common
  import opened Tables
  import opened Quota
  import SubscriptionApi

  /** The line under the bar: `${remaining} URLs remaining` or `Usage limit reached`. */
  datatype RemainingText = Remaining(count: int) | LimitReached

  /** What the panel shows. */
  datatype Panel = Panel(premiumTitle: bool, upgradeButton: bool, remaining: RemainingText, red: bool, full: bool, upgradePanel: bool)

  /**
   * `usagePercent > 80`, where `usagePercent = usage / limit * 100`. For a positive limit
   * this is 5·usage > 4·limit; a zero limit gives an infinite percentage for positive usage
   * and no number for zero usage; a negative limit reverses the comparison.
   */
  predicate OverEighty(usage: int, limit: int)
  {
    if limit > 0 then 5 * usage > 4 * limit
    else if limit == 0 then usage > 0
    else 5 * usage < 4 * limit
  }

  /** `Math.min(usagePercent, 100)` is the full 100: the bar is drawn at its cap. */
  predicate AtCap(usage: int, limit: int)
  {
    if limit > 0 then usage >= limit
    else if limit == 0 then usage > 0
    else usage <= limit
  }

  /** The panel for a loaded subscription; nothing before it has loaded. */
  function Render(sub: Option<Subscription>): (r: Option<Panel>)
    ensures r.None? <==> sub.None?
    ensures r.Some? ==>
      var s, p := sub.value, r.value;
      && (p.premiumTitle <==> s.planType == "premium")
      && (p.upgradeButton <==> s.planType == "free") && (p.upgradePanel <==> s.planType == "free")
      && (p.remaining.LimitReached? <==> s.monthlyLimit - s.currentUsage <= 0)
      && (p.remaining.Remaining? ==> p.remaining.count == s.monthlyLimit - s.currentUsage)
      && (p.red <==> OverEighty(s.currentUsage, s.monthlyLimit))
      && (p.full <==> AtCap(s.currentUsage, s.monthlyLimit))
  {
    match sub
    case None => None
    case Some(s) =>
      var remaining := s.monthlyLimit - s.currentUsage;
      Some(Panel(
        s.planType == "premium",
        s.planType == "free",
        if remaining > 0 then Remaining(remaining) else LimitReached,
        OverEighty(s.currentUsage, s.monthlyLimit),
        AtCap(s.currentUsage, s.monthlyLimit),
        s.planType == "free"))
  }

  /** "Usage limit reached" is shown exactly when the server would refuse one more link. */
  lemma LimitReachedIffRefused(s: Subscription, uid: string)
    ensures Render(Some(s)).value.remaining.LimitReached? <==> !CheckUsageLimit(Some(uid), Some(s), 1).allowed
  {
  }

  /**
   * The panel renders the row the subscription endpoint returns, which is the stored row
   * normalised. For every stored limit other than 0, "Usage limit reached" is shown
   * exactly when the server would refuse one more link.
   */
  lemma ShownLimitReachedIffRefused(s: Subscription, uid: string)
    requires s.monthlyLimit != 0
    ensures Render(Some(SubscriptionApi.Normalized(s))).value.remaining.LimitReached? <==> !CheckUsageLimit(Some(uid), Some(s), 1).allowed
  {
    LimitReachedIffRefused(SubscriptionApi.Normalized(s), uid);
  }

  /**
   * A stored limit of 0 is where panel and server part: the endpoint reports the free
   * limit, so the panel offers 25 more links while the server refuses the next one.
   */
  lemma ZeroLimitShownAsFree(uid: string)
    ensures var s := Subscription("free", 0, 0);
      && !CheckUsageLimit(Some(uid), Some(s), 1).allowed
      && Render(Some(SubscriptionApi.Normalized(s))).value.remaining == Remaining(25)
  {
  }

  /** With a positive limit, a user the server refuses sees a full red bar. */
  lemma RefusedShowsFullRedBar(s: Subscription, uid: string)
    requires s.monthlyLimit > 0 && !CheckUsageLimit(Some(uid), Some(s), 1).allowed
    ensures Render(Some(s)).value.red && Render(Some(s)).value.full
  {
  }

  /** On the free limit of 25 the bar turns red from the 21st link of the month. */
  lemma FreeBarRedFrom21(s: Subscription)
    requires s.monthlyLimit == FreeLimit
    ensures Render(Some(s)).value.red <==> s.currentUsage >= 21
  {
  }

  /** After an upgrade the panel shows the premium title and no upgrade offer. */
  lemma UpgradeHidesOffer(s: Subscription)
    ensures var p := Render(Some(Upgrade(s))).value;
      p.premiumTitle && !p.upgradeButton && !p.upgradePanel
  {
  }
}

=== FILE: tables.dfy ===
/**
 * The three tables of the hosted database: `urls`, `url_analytics` and
 * `user_subscriptions`. The store enforces what the schema enforces:
 * short codes are unique, and row ids are unique serial numbers.
 */
module Tables {
  import opened Common

  /** A row of `urls`. A new row starts with `click_count` 0. */
  datatype UrlRow = UrlRow(id: nat, shortCode: string, longUrl: string, userId: Option<string>, clickCount: int)

  /** The fields of a click that the analytics use; a field the parser could not fill is absent. */
  datatype ClickInfo = ClickInfo(country: Option<string>, deviceType: Option<string>, browser: Option<string>)

  /** A row of `url_analytics`. */
  datatype Click = Click(urlId: nat, info: ClickInfo)

  /** A row of `user_subscriptions` (the billing-cycle date is left out). */
  datatype Subscription = Subscription(planType: string, monthlyLimit: int, currentUsage: int)

  /** `.eq('short_code', code).single()`: the row holding the code, if any. */
  function CodeIndex(rows: seq<UrlRow>, code: string): (r: Option<nat>)
    ensures r.Some? ==> r.value < |rows| && rows[r.value].shortCode == code
    ensures r.None? ==> forall i :: 0 <= i < |rows| ==> rows[i].shortCode != code
  {
    if rows == [] then None
    else if rows[|rows| - 1].shortCode == code then Some(|rows| - 1)
    else CodeIndex(rows[..|rows| - 1], code)
  }

  /**
   * `.eq('id', id).eq('user_id', owner)`: the row with that id belonging to that user.
   * An absent owner matches no row, as SQL equality with NULL never holds.
   */
  function OwnedIndex(rows: seq<UrlRow>, id: nat, owner: Option<string>): (r: Option<nat>)
    ensures r.Some? ==> r.value < |rows| && rows[r.value].id == id && owner.Some? && rows[r.value].userId == owner
    ensures r.None? ==> forall i :: 0 <= i < |rows| ==> !(rows[i].id == id && owner.Some? && rows[i].userId == owner)
  {
    if rows == [] then None
    else
      var last := rows[|rows| - 1];
      if last.id == id && owner.Some? && last.userId == owner then Some(|rows| - 1)
      else OwnedIndex(rows[..|rows| - 1], id, owner)
  }

  /** `.eq('user_id', uid)`: the rows of one user, in table order. */
  function OwnedBy(rows: seq<UrlRow>, uid: string): (r: seq<UrlRow>)
    ensures |r| <= |rows|
    ensures forall k :: 0 <= k < |r| ==> r[k].userId == Some(uid) && r[k] in rows
    ensures forall i :: 0 <= i < |rows| && rows[i].userId == Some(uid) ==> rows[i] in r
  {
    if rows == [] then []
    else
      var init := OwnedBy(rows[..|rows| - 1], uid);
      var last := rows[|rows| - 1];
      assert forall i :: 0 <= i < |rows| - 1 ==> rows[i] == rows[..|rows| - 1][i];
      if last.userId == Some(uid) then init + [last] else init
  }

  /** Row ids grow in table order, which is creation order. */
  predicate IdsIncrease(rows: seq<UrlRow>)
  {
    forall i, j :: 0 <= i < j < |rows| ==> rows[i].id < rows[j].id
  }

  /** Selecting one user's rows keeps the creation order. */
  lemma {:induction false} OwnedByIncreasing(rows: seq<UrlRow>, uid: string)
    requires IdsIncrease(rows)
    ensures IdsIncrease(OwnedBy(rows, uid))
  {
    if rows != [] {
      var init, last := rows[..|rows| - 1], rows[|rows| - 1];
      OwnedByIncreasing(init, uid);
      var r := OwnedBy(init, uid);
      forall k | 0 <= k < |r|
        ensures r[k].id < last.id
      {
        var i :| 0 <= i < |init| && init[i] == r[k];
        assert rows[i] == init[i];
      }
    }
  }

  /** `.order('created_at', { ascending: false })`: the rows newest first. */
  function NewestFirst(rows: seq<UrlRow>): (r: seq<UrlRow>)
    ensures |r| == |rows| && forall k :: 0 <= k < |rows| ==> r[k] == rows[|rows| - 1 - k]
    ensures forall x :: x in r <==> x in rows
    ensures IdsIncrease(rows) ==> forall k, l :: 0 <= k < l < |r| ==> r[k].id > r[l].id
  {
    var r := seq(|rows|, k requires 0 <= k < |rows| => rows[|rows| - 1 - k]);
    assert forall i :: 0 <= i < |rows| ==> rows[i] == r[|rows| - 1 - i];
    r
  }

  /**
   * The constraints the `urls` table keeps, stated row by row from the end: each row's
   * short code is not held by an earlier row, and ids grow in table order and stay
   * below `bound`, the next value of the id serial.
   */
  ghost predicate Keyed(rows: seq<UrlRow>, bound: nat)
    decreases |rows|
  {
    if rows == [] then true
    else
      var init, last := rows[..|rows| - 1], rows[|rows| - 1];
      last.id < bound && CodeIndex(init, last.shortCode).None? && Keyed(init, last.id)
  }

  /** The same constraints stated over all pairs of rows. */
  ghost predicate KeyedPairs(rows: seq<UrlRow>, bound: nat)
  {
    && (forall i, j :: 0 <= i < j < |rows| ==> rows[i].shortCode != rows[j].shortCode && rows[i].id < rows[j].id)
    && (forall i :: 0 <= i < |rows| ==> rows[i].id < bound)
  }

  /** The row-by-row and the pairwise statements of the table constraints agree. */
  lemma {:induction false} KeyedIffPairs(rows: seq<UrlRow>, bound: nat)
    ensures Keyed(rows, bound) <==> KeyedPairs(rows, bound)
    decreases |rows|
  {
    if rows != [] {
      var n := |rows|;
      var init, last := rows[..n - 1], rows[n - 1];
      KeyedIffPairs(init, last.id);
      if Keyed(rows, bound) {
        assert KeyedPairs(init, last.id);
        forall i, j | 0 <= i < j < n
          ensures rows[i].shortCode != rows[j].shortCode && rows[i].id < rows[j].id
        {
          if j < n - 1 {
            assert rows[i] == init[i] && rows[j] == init[j];
          } else {
            assert rows[i] == init[i];
          }
        }
        forall i | 0 <= i < n
          ensures rows[i].id < bound
        {
          if i < n - 1 {
            assert rows[i] == init[i];
          }
        }
      }
      if KeyedPairs(rows, bound) {
        forall i | 0 <= i < |init|
          ensures init[i].shortCode != last.shortCode && init[i].id < last.id
        {
          assert init[i] == rows[i];
        }
        forall i, j | 0 <= i < j < |init|
          ensures init[i].shortCode != init[j].shortCode && init[i].id < init[j].id
        {
          assert init[i] == rows[i] && init[j] == rows[j];
        }
        assert KeyedPairs(init, last.id);
      }
    }
  }

  /** Row ids and short codes are unique in a table that keeps the constraints. */
  lemma KeyedUnique(rows: seq<UrlRow>, bound: nat)
    requires Keyed(rows, bound)
    ensures forall i, j :: 0 <= i < |rows| && 0 <= j < |rows| && i != j ==> rows[i].shortCode != rows[j].shortCode && rows[i].id != rows[j].id
  {
    KeyedIffPairs(rows, bound);
    forall i, j | 0 <= i < |rows| && 0 <= j < |rows| && i != j
      ensures rows[i].shortCode != rows[j].shortCode && rows[i].id != rows[j].id
    {
      if i > j {
        assert rows[j].shortCode != rows[i].shortCode && rows[j].id < rows[i].id;
      }
    }
  }

  /** Deleting a row keeps the table constraints. */
  lemma KeyedRemove(rows: seq<UrlRow>, bound: nat, i: nat)
    requires Keyed(rows, bound) && i < |rows|
    ensures Keyed(rows[..i] + rows[i + 1..], bound)
  {
    KeyedIffPairs(rows, bound);
    var rest := rows[..i] + rows[i + 1..];
    forall k | 0 <= k < |rest|
      ensures rest[k] == rows[if k < i then k else k + 1]
    {
    }
    forall k, l | 0 <= k < l < |rest|
      ensures rest[k].shortCode != rest[l].shortCode && rest[k].id < rest[l].id
    {
      var k', l' := if k < i then k else k + 1, if l < i then l else l + 1;
      assert k' < l' && rest[k] == rows[k'] && rest[l] == rows[l'];
    }
    assert KeyedPairs(rest, bound);
    KeyedIffPairs(rest, bound);
  }

  /** Replacing a row by one with the same id and a code no other row holds keeps the constraints. */
  lemma KeyedReplace(rows: seq<UrlRow>, bound: nat, i: nat, row: UrlRow)
    requires Keyed(rows, bound) && i < |rows| && row.id == rows[i].id
    requires forall j :: 0 <= j < |rows| && j != i ==> rows[j].shortCode != row.shortCode
    ensures Keyed(rows[i := row], bound)
  {
    KeyedIffPairs(rows, bound);
    KeyedIffPairs(rows[i := row], bound);
  }

  /** Every analytics row refers to an id the `urls` serial has already handed out. */
  predicate ClicksBelow(clicks: seq<Click>, bound: nat)
  {
    forall k :: 0 <= k < |clicks| ==> clicks[k].urlId < bound
  }

  class Store {
    var urls: seq<UrlRow>
    var clicks: seq<Click>
    var subscriptions: map<string, Subscription>
    /** The next value of the `urls.id` serial. */
    var nextId: nat

    ghost predicate Valid()
      reads this
    {
      Keyed(urls, nextId) && ClicksBelow(clicks, nextId)
    }

    constructor ()
      ensures Valid()
      ensures urls == [] && clicks == [] && subscriptions == map[] && nextId == 0
    {
      urls, clicks, subscriptions, nextId := [], [], map[], 0;
    }

    /** `insert` into `urls`: refused, as a unique violation, when the short code is taken. */
    method InsertUrl(code: string, longUrl: string, userId: Option<string>) returns (inserted: bool)
      requires Valid()
      modifies this
      ensures Valid()
      ensures inserted <==> CodeIndex(old(urls), code).None?
      ensures urls == if inserted then old(urls) + [UrlRow(old(nextId), code, longUrl, userId, 0)] else old(urls)
      ensures nextId == if inserted then old(nextId) + 1 else old(nextId)
      ensures clicks == old(clicks) && subscriptions == old(subscriptions)
    {
      inserted := CodeIndex(urls, code).None?;
      if inserted {
        urls := urls + [UrlRow(nextId, code, longUrl, userId, 0)];
        nextId := nextId + 1;
      }
    }

    /** `update({ short_code: code })` of row `i`: refused, as a unique violation, when another row holds the code. */
    method UpdateCode(i: nat, code: string) returns (updated: bool)
      requires Valid() && i < |urls|
      modifies this
      ensures Valid()
      ensures updated <==> forall j :: 0 <= j < |old(urls)| && j != i ==> old(urls)[j].shortCode != code
      ensures urls == if updated then old(urls)[i := old(urls)[i].(shortCode := code)] else old(urls)
      ensures clicks == old(clicks) && subscriptions == old(subscriptions) && nextId == old(nextId)
    {
      var holder := CodeIndex(urls, code);
      updated := holder.None? || holder.value == i;
      KeyedUnique(urls, nextId);
      if updated {
        KeyedReplace(urls, nextId, i, urls[i].(shortCode := code));
        urls := urls[i := urls[i].(shortCode := code)];
      } else {
        assert urls[holder.value].shortCode == code;
      }
    }

    /** `update({ click_count: click_count + 1 })` of row `i`. */
    method IncrementClicks(i: nat)
      requires Valid() && i < |urls|
      modifies this
      ensures Valid()
      ensures urls == old(urls)[i := old(urls)[i].(clickCount := old(urls)[i].clickCount + 1)]
      ensures clicks == old(clicks) && subscriptions == old(subscriptions) && nextId == old(nextId)
    {
      KeyedUnique(urls, nextId);
      KeyedReplace(urls, nextId, i, urls[i].(clickCount := urls[i].clickCount + 1));
      urls := urls[i := urls[i].(clickCount := urls[i].clickCount + 1)];
    }

    /** `insert` into `url_analytics`. */
    method AddClick(click: Click)
      requires Valid() && click.urlId < nextId
      modifies this
      ensures Valid()
      ensures clicks == old(clicks) + [click]
      ensures urls == old(urls) && subscriptions == old(subscriptions) && nextId == old(nextId)
    {
      clicks := clicks + [click];
    }

    /** `delete()` of row `i`. */
    method DeleteUrl(i: nat)
      requires Valid() && i < |urls|
      modifies this
      ensures Valid()
      ensures urls == old(urls)[..i] + old(urls)[i + 1..]
      ensures clicks == old(clicks) && subscriptions == old(subscriptions) && nextId == old(nextId)
    {
      KeyedRemove(urls, nextId, i);
      urls := urls[..i] + urls[i + 1..];
    }

    /** `insert` or `update` of the subscription row of `uid`. */
    method PutSubscription(uid: string, sub: Subscription)
      requires Valid()
      modifies this
      ensures Valid()
      ensures subscriptions == old(subscriptions)[uid := sub]
      ensures urls == old(urls) && clicks == old(clicks) && nextId == old(nextId)
    {
      subscriptions := subscriptions[uid := sub];
    }
  }
}

=== FILE: text.dfy ===
/**
 * The string operations of JavaScript that the handlers and components use:
 * `trim`, `startsWith`, `includes`, `split` on one character, and `replace`
 * of the first occurrence of a literal pattern.
 */
module Text {
  import opened Common

  /** The characters `String.prototype.trim` removes: ECMAScript white space and line terminators. */
  predicate IsWhitespace(c: char)
  {
    c == ' ' || c == '\t' || c == '\n' || c == '\r' || c == '\U{B}' || c == '\U{C}'
    || c == '\U{A0}' || c == '\U{1680}' || ('\U{2000}' <= c <= '\U{200A}')
    || c == '\U{2028}' || c == '\U{2029}' || c == '\U{202F}' || c == '\U{205F}'
    || c == '\U{3000}' || c == '\U{FEFF}'
  }

  /** Drops the leading white space: the result is a suffix of `s` and starts with a non-space. */
  function TrimStart(s: string): (r: string)
    ensures |r| <= |s| && r == s[|s| - |r|..]
    ensures forall i :: 0 <= i < |s| - |r| ==> IsWhitespace(s[i])
    ensures r == [] || !IsWhitespace(r[0])
  {
    if s != [] && IsWhitespace(s[0]) then TrimStart(s[1..]) else s
  }

  /** Drops the trailing white space: the result is a prefix of `s` and ends with a non-space. */
  function TrimEnd(s: string): (r: string)
    ensures |r| <= |s| && r == s[..|r|]
    ensures forall i :: |r| <= i < |s| ==> IsWhitespace(s[i])
    ensures r == [] || !IsWhitespace(r[|r| - 1])
  {
    if s != [] && IsWhitespace(s[|s| - 1]) then TrimEnd(s[..|s| - 1]) else s
  }

  /** A string made of white space only: exactly those whose `trim()` is "" and therefore falsy. */
  predicate IsBlank(s: string)
  {
    forall i :: 0 <= i < |s| ==> IsWhitespace(s[i])
  }

  /**
   * `s.trim()`: never longer than `s`, without white space at either end, and empty
   * (falsy) exactly when `s` is blank. `TrimIsSlice` shows which slice of `s` it is.
   */
  function Trim(s: string): (r: string)
    ensures |r| <= |s|
    ensures r == [] || (!IsWhitespace(r[0]) && !IsWhitespace(r[|r| - 1]))
    ensures r == [] <==> IsBlank(s)
  {
    var t := TrimStart(s);
    var u := TrimEnd(t);
    assert u != [] ==> u[0] == t[0];
    u
  }

  /**
   * `trim()` cuts off the white space at both ends and nothing else: the result is the
   * slice of `s` between a blank prefix and a blank suffix. With `Trim`'s ends, which are
   * not white space, this fixes the result.
   */
  lemma TrimIsSlice(s: string)
    ensures exists i, j :: 0 <= i <= j <= |s| && Trim(s) == s[i..j] && IsBlank(s[..i]) && IsBlank(s[j..])
  {
    var t := TrimStart(s);
    var u := TrimEnd(t);
    SliceBetween(s, |s| - |t|, |s| - |t| + |u|, t, u);
  }

  /** The middle of `s` between positions `i` and `j`, given as a suffix `t` and then a prefix `u` of it. */
  lemma SliceBetween(s: string, i: nat, j: nat, t: string, u: string)
    requires i <= j <= |s| && t == s[i..] && u == t[..j - i]
    requires forall k :: 0 <= k < i ==> IsWhitespace(s[k])
    requires forall k :: j - i <= k < |t| ==> IsWhitespace(t[k])
    ensures u == s[i..j] && IsBlank(s[..i]) && IsBlank(s[j..])
  {
    forall k | 0 <= k < |s| - j ensures IsWhitespace(s[j..][k]) {
      assert s[j..][k] == t[j - i + k];
    }
  }

  /** `s.startsWith(p)`. */
  predicate StartsWith(s: string, p: string)
  {
    |p| <= |s| && s[..|p|] == p
  }

  /** `pat` occurs in `s` at position `k`. */
  predicate OccursAt(s: string, pat: string, k: nat)
  {
    k + |pat| <= |s| && s[k..k + |pat|] == pat
  }

  /** The first position at or after `k` where `pat` occurs, if any. */
  function IndexFrom(s: string, pat: string, k: nat): (r: Option<nat>)
    ensures r.Some? ==> k <= r.value && OccursAt(s, pat, r.value)
    ensures r.Some? ==> forall j :: k <= j < r.value ==> !OccursAt(s, pat, j)
    ensures r.None? ==> forall j :: k <= j <= |s| ==> !OccursAt(s, pat, j)
    decreases |s| - k
  {
    if k + |pat| > |s| then None
    else if OccursAt(s, pat, k) then Some(k)
    else IndexFrom(s, pat, k + 1)
  }

  /** `s.indexOf(pat)`: the first position where `pat` occurs, if any. */
  function IndexOf(s: string, pat: string): (r: Option<nat>)
    ensures r.Some? ==> OccursAt(s, pat, r.value)
    ensures r.Some? ==> forall j :: 0 <= j < r.value ==> !OccursAt(s, pat, j)
    ensures r.None? ==> forall j :: 0 <= j <= |s| ==> !OccursAt(s, pat, j)
  {
    IndexFrom(s, pat, 0)
  }

  /** `s.includes(pat)`. */
  predicate Contains(s: string, pat: string)
  {
    IndexOf(s, pat).Some?
  }

  /** `s.replace(pat, rep)` with a string pattern: only the first occurrence is replaced. */
  function ReplaceFirst(s: string, pat: string, rep: string): (r: string)
    ensures IndexOf(s, pat).None? ==> r == s
    ensures IndexOf(s, pat).Some? ==> |r| == |s| - |pat| + |rep|
    ensures IndexOf(s, pat).Some? ==>
      var k := IndexOf(s, pat).value;
      && r[..k] == s[..k] && r[k..k + |rep|] == rep && r[k + |rep|..] == s[k + |pat|..]
  {
    match IndexOf(s, pat)
    case None => s
    case Some(k) => s[..k] + rep + s[k + |pat|..]
  }

  /** Number of occurrences of `c` in `s`. */
  function CountChar(s: string, c: char): nat
  {
    if s == [] then 0 else (if s[0] == c then 1 else 0) + CountChar(s[1..], c)
  }

  /** `s.split(sep)` for a one-character separator: the pieces between separators, empty ones included. */
  function SplitOn(s: string, sep: char): (r: seq<string>)
    ensures |r| >= 1
    ensures forall i :: 0 <= i < |r| ==> sep !in r[i]
  {
    if s == [] then [[]]
    else
      var rest := SplitOn(s[1..], sep);
      if s[0] == sep then [[]] + rest
      else [[s[0]] + rest[0]] + rest[1..]
  }

  /** `parts.join(sep)`. */
  function JoinWith(parts: seq<string>, sep: char): string
    requires |parts| >= 1
  {
    if |parts| == 1 then parts[0] else parts[0] + [sep] + JoinWith(parts[1..], sep)
  }

  /** Joining the pieces of a split gives back the string. */
  lemma {:induction false} JoinSplit(s: string, sep: char)
    ensures JoinWith(SplitOn(s, sep), sep) == s
  {
    if s != [] {
      var rest := SplitOn(s[1..], sep);
      JoinSplit(s[1..], sep);
      if s[0] != sep {
        if |rest| == 1 {
        } else {
          assert JoinWith(rest, sep) == rest[0] + [sep] + JoinWith(rest[1..], sep);
        }
      }
    }
  }

  /** Splitting the join of separator-free pieces gives back the pieces. */
  lemma {:induction false} SplitJoin(parts: seq<string>, sep: char)
    requires |parts| >= 1
    requires forall i :: 0 <= i < |parts| ==> sep !in parts[i]
    ensures SplitOn(JoinWith(parts, sep), sep) == parts
  {
    if |parts| == 1 {
      NoSeparatorSplit(parts[0], sep);
    } else {
      SplitJoin(parts[1..], sep);
      SplitAfterPrefix(parts[0], sep, JoinWith(parts[1..], sep));
    }
  }

  /** A string without the separator splits into itself alone. */
  lemma {:induction false} NoSeparatorSplit(s: string, sep: char)
    requires sep !in s
    ensures SplitOn(s, sep) == [s]
  {
    if s != [] {
      assert s[0] != sep && sep !in s[1..];
      NoSeparatorSplit(s[1..], sep);
      assert [s[0]] + s[1..] == s;
    }
  }

  /** Splitting `a + [sep] + b`, where `a` has no separator, yields `a` followed by the pieces of `b`. */
  lemma {:induction false} SplitAfterPrefix(a: string, sep: char, b: string)
    requires sep !in a
    ensures SplitOn(a + [sep] + b, sep) == [a] + SplitOn(b, sep)
  {
    var s := a + [sep] + b;
    if a == [] {
      assert s[1..] == b;
    } else {
      assert s[1..] == a[1..] + [sep] + b;
      assert s[0] == a[0] != sep && sep !in a[1..];
      SplitAfterPrefix(a[1..], sep, b);
      assert [a[0]] + a[1..] == a;
    }
  }

  /** A split has one more piece than the string has separators. */
  lemma {:induction false} SplitCount(s: string, sep: char)
    ensures |SplitOn(s, sep)| == CountChar(s, sep) + 1
  {
    if s != [] {
      SplitCount(s[1..], sep);
    }
  }

  /** The last piece of a split is what follows the last separator. */
  lemma {:induction false} SplitLast(a: string, sep: char, b: string)
    requires sep !in b
    ensures var p := SplitOn(a + [sep] + b, sep); p[|p| - 1] == b
  {
    var s := a + [sep] + b;
    if a == [] {
      assert s[1..] == b;
      NoSeparatorSplit(b, sep);
    } else {
      assert s[1..] == a[1..] + [sep] + b;
      SplitLast(a[1..], sep, b);
      SplitCount(s[1..], sep);
      assert s[1..][|a| - 1] == sep;
      CountPositive(s[1..], sep, |a| - 1);
    }
  }

  /** A string holding `c` at position `k` counts at least one `c`. */
  lemma {:induction false} CountPositive(s: string, c: char, k: nat)
    requires k < |s| && s[k] == c
    ensures CountChar(s, c) >= 1
  {
    if k > 0 {
      CountPositive(s[1..], c, k - 1);
    }
  }

  /** The first piece of a split is what precedes the first separator. */
  lemma {:induction false} SplitFirst(a: string, sep: char, b: string)
    requires sep !in a
    ensures SplitOn(a + [sep] + b, sep)[0] == a
  {
    SplitAfterPrefix(a, sep, b);
  }
}

=== FILE: urls.dfy ===
/** The two scheme normalisations applied to a long URL before it is stored. */
module Urls {
  import opened Text

  /** The URL already names the `http://` or `https://` scheme. */
  predicate HasScheme(url: string)
  {
    StartsWith(url, "http://") || StartsWith(url, "https://")
  }

  /** Prefix `https://` unless the URL starts with `http://` or `https://` (the Express server and api/shorten.js). */
  function Normalize(url: string): (r: string)
    ensures HasScheme(r)
    ensures |url| <= |r| && r[|r| - |url|..] == url
    ensures r == url <==> HasScheme(url)
  {
    if HasScheme(url) then url else "https://" + url
  }

  /** Normalising twice is normalising once. */
  lemma NormalizeIdempotent(url: string)
    ensures Normalize(Normalize(url)) == Normalize(url)
  {
  }

  /** Prefix `https://` unless the URL starts with the four letters `http` (api/index.js). */
  function NormalizeLoose(url: string): (r: string)
    ensures StartsWith(r, "http")
    ensures |url| <= |r| && r[|r| - |url|..] == url
    ensures r == url <==> StartsWith(url, "http")
  {
    if StartsWith(url, "http") then url else "https://" + url
  }

  /** The two variants disagree exactly on URLs that start with `http` but name no scheme. */
  lemma NormalizeVariantsDiffer(url: string)
    ensures NormalizeLoose(url) != Normalize(url) <==> StartsWith(url, "http") && !HasScheme(url)
  {
    if StartsWith(url, "http") && !HasScheme(url) {
      assert |Normalize(url)| > |url|;
    }
    if StartsWith(url, "http://") {
      assert url[..4] == url[..7][..4];
    } else if StartsWith(url, "https://") {
      assert url[..4] == url[..8][..4];
    }
  }

  /** `httpbin.org` is stored unchanged by the loose variant and gets `https://` from the strict one. */
  lemma HttpbinExample()
    ensures NormalizeLoose("httpbin.org") == "httpbin.org"
    ensures Normalize("httpbin.org") == "https://httpbin.org"
    ensures !HasScheme(NormalizeLoose("httpbin.org"))
  {
    assert "httpbin.org"[..4] == "http";
    assert "httpbin.org"[..7][4] == 'b';
    assert "httpbin.org"[..8][4] == 'b';
  }
}
